=== FILE: README.md ===
# Chat app core, modelled in Dafny

This project models the core of a Next.js chat application. Users hold
conversations with a language model. Each conversation ("chat") is stored
as rows of messages. The chat route saves each message's content as a JSON
array of *parts*: `text`, `reasoning` and `step-start` markers. The first
message of a chat is the exception: creating the chat stores it as the raw
text the user typed. The modules are:

- `ChatRoute` models the chat API route. It turns stored messages back into
  UI messages. It appends the request's new messages and converts the list
  for the model, with a text-only fallback when the SDK's conversion throws.
  When the stream finishes, it decides which user and assistant records to
  write.
- `MessageView` models the chat view on the client:
  - it normalises the stored messages for display, keeping every part kind;
  - it renders parts, drawing a divider for each step marker after the first part;
  - it sends a manual submission;
  - it fires the one automatic continuation that a freshly created chat is owed.
    A one-shot guard per mount and a registry of triggered chats, kept for
    the session, together bound this to at most one send per chat.
- `PromptInput` models the prompt input's attachment list:
  - the `accept` filter, the size filter and the `maxFiles` cap, with their error codes;
  - remove, clear and submit;
  - the Enter-to-submit key rule and the submit button's icon.
- `ChatActions` models the server actions on the chat store: create a chat
  with its first message, list the caller's chats newest first, and delete a
  chat the caller owns.
- `WelcomeTabs` models the empty-chat welcome screen: the greeting's first
  name, the active tab and the separators between suggestions.
- `Content` and `Seqs` hold what the others share:
  - JavaScript string operations (`trim` blankness, ASCII `toLowerCase`,
    `indexOf`, `slice` with negative indices, `join`);
  - the JSON shapes a stored content blob can parse to;
  - order-preserving `Filter` and `Count`.

`JSON.parse` and `JSON.stringify` are parameters of the model (`Parser`,
`Printer`). The round-trip lemmas assume only `Content.RoundTrips`: parsing
printed JSON gives the value back, and printed JSON is never blank.

How the two normalisers treat parts:

- The server route keeps only `text` parts (`src/app/api/chat/route.ts:22-24`).
  `ChatRoute.SavedTextPartsRoundTrip` proves that saving and normalising gives
  a text-only message back. A saved response made only of reasoning and step
  markers is missing from the next request's history
  (`ChatRoute.TextlessResponseDropped`).
- The client view keeps every part kind (`MessageView.StoredPartsRoundTrip`).
- The server salvages a message whose content does not filter cleanly as one
  raw text part. That covers three cases: the content does not parse, it is
  not an array, or it holds a `null` element.
- The client keeps a parsed array unfiltered, so `"[]"` gives a message with
  no parts. A `null` part makes the client's render throw (`Screen.Crashed`).

## Model

| member | source | states |
|---|---|---|
| Content.LowerAscii | src/app/api/chat/route.ts:32 | lower-casing keeps the length and maps each character on its own, ASCII capitals to the lower-case letter 32 code points on, every other character unchanged |
| Content.RoleNamesLowerCase | src/app/api/chat/route.ts:32 | the stored roles `USER` and `ASSISTANT` lower-case to the UI roles `user` and `assistant` |
| Content.IndexOf | src/modules/chat/components/chat-welcome-tabs.tsx:69 | -1 exactly when the character is absent, otherwise the index of its first occurrence |
| Content.JsSlice | src/modules/chat/components/chat-welcome-tabs.tsx:69 | within bounds `slice(start, end)` is `s[start..end]`; a negative end counts from the end of the string; an end at or before the start gives ""; in general the result is the run of characters between the two clamped indices, and `SliceIndex` clamps below -length to 0 and above length to length |
| Content.Join | src/app/api/chat/route.ts:108 | joining no strings gives "" and joining one string gives that string |
| ChatRoute.TextParts | src/app/api/chat/route.ts:22-24 | a part is kept iff it is an object part whose type is "text"; the result is only text parts and no longer than the input |
| ChatRoute.TextPartsAppend | src/app/api/chat/route.ts:22-24 | filtering distributes over concatenation, so the kept text parts keep their order and multiplicity |
| ChatRoute.TextPartsOfObjs | src/app/api/chat/route.ts:22-24 | on an array of part objects, the result is exactly the order-preserving filter by type "text" |
| ChatRoute.ConvertStoredMessageToUI | src/app/api/chat/route.ts:13-44 | a result always has at least one part, all text, with the record's id, createdAt and lower-cased role; content that does not parse to a null-free array is salvaged as one raw text part; otherwise the result is null iff no text part survives, and else holds exactly the text parts |
| ChatRoute.NormaliseHistory | src/app/api/chat/route.ts:79-81 | null results are dropped: no more messages than records, each with at least one part, all text; every message is the conversion of some record, and every record that converts to a message contributes it |
| ChatRoute.NormaliseHistoryAppend | src/app/api/chat/route.ts:79-81 | normalisation works record by record, so it distributes over concatenation and keeps the records' order |
| ChatRoute.UnparsableRecordKept | src/app/api/chat/route.ts:36-43 | a record whose content does not parse is never dropped, wherever it stands: it appears as its raw text between what the records before it and after it normalise to |
| ChatRoute.UnparsableHistoryKept | src/app/api/chat/route.ts:36-43 | when no record's content parses, every record survives in order as its raw content in one text part |
| ChatRoute.TextPartsOfTextParts | src/app/api/chat/route.ts:22-24 | filtering a list of text parts for text keeps it unchanged |
| ChatRoute.PartsToSave | src/app/api/chat/route.ts:50-55 | a message is saved with its parts array when it has one, otherwise with one text part holding its content or "" |
| ChatRoute.ExtractPartsAsJson | src/app/api/chat/route.ts:46-56 | for any parser that inverts the printer, the saved text parses back to exactly the parts the message is saved with and is never blank; normalisation is its partner, see `SavedTextPartsRoundTrip`, `SavedContentRoundTrip` and `TextlessResponseDropped` |
| ChatRoute.SavedTextPartsRoundTrip | src/app/api/chat/route.ts:46-51 | a message made of text parts, saved and normalised again, gives back the same parts with the record's id, role and time |
| ChatRoute.SavedContentRoundTrip | src/app/api/chat/route.ts:54-55 | a message without parts is saved as its content (or "") and normalises back to that one text part |
| ChatRoute.TextlessResponseDropped | src/app/api/chat/route.ts:26-28 | a saved message with no text part at all normalises to null, so it is missing from later history |
| ChatRoute.TextPartsOfTextless | src/app/api/chat/route.ts:22-28 | filtering a list without text parts leaves nothing |
| ChatRoute.NormaliseNew | src/app/api/chat/route.ts:83-85 | a single new message becomes a one-element list and an array is used as it is |
| ChatRoute.Assemble | src/app/api/chat/route.ts:91 | the combined list is the history followed by the new messages, nothing lost or reordered |
| ChatRoute.FallbackConvert | src/app/api/chat/route.ts:99-113 | the fallback fails iff some message has no parts array; otherwise no converted message is empty, every message whose joined text is non-empty appears, and nothing else does; a single message converts to itself, or to nothing when its text is empty |
| ChatRoute.FallbackConvertAppend | src/app/api/chat/route.ts:102-110 | the fallback converts message by message: converting a concatenation concatenates the conversions, so the conversation reaches the model in order, one entry per message with text |
| ChatRoute.TextsOf | src/app/api/chat/route.ts:104-107 | exactly the `text` (or `""`) of each text part, one per text part, in the parts' order |
| ChatRoute.TextsOfAppend | src/app/api/chat/route.ts:104-107 | collecting the texts works part by part, so the texts of `a + b` are those of `a` followed by those of `b` |
| ChatRoute.FallbackSinglePart | src/app/api/chat/route.ts:102-110 | a message with one text part reaches the model with exactly that text |
| ChatRoute.HistoryFor | src/app/api/chat/route.ts:72-81 | without a chat id there is no history; with one, the history is the normalised stored records; every history message has text parts only |
| ChatRoute.Post | src/app/api/chat/route.ts:91-113 | the original messages are history plus new messages; the fallback is used iff the SDK conversion throws, and the model messages come from whichever ran; the route fails with a server error iff both the conversion and the fallback fail |
| ChatRoute.PostNeverSendsEmpty | src/app/api/chat/route.ts:91-110 | the assembled list begins with the normalised history, all text parts, and after the fallback no model message is empty |
| ChatRoute.RecordsToSave | src/app/api/chat/route.ts:141-169 | a user record is collected iff the user message is not skipped and the last new message is the user's; an assistant record iff the response has parts; the user record comes first; every record carries the chat id, the model and type NORMAL; each content is the serialised parts |
| ChatRoute.CollectRecordsToSave | src/app/api/chat/route.ts:133-169 | the push-by-push collection equals `RecordsToSave` and holds at most two records |
| ChatRoute.MessageTable.OnFinish | src/app/api/chat/route.ts:171-178 | the collected records are appended in one batch when there are any; a failed write leaves the rows as they were and logs one error |
| MessageView.NormaliseRecords | src/modules/messages/components/message-view-form.tsx:52-74 | one message per displayable record (non-blank content, non-empty id), each with a non-empty id and converted from a displayable record |
| MessageView.InitialMessages | src/modules/messages/components/message-view-form.tsx:49-74 | nothing before the chat has loaded; afterwards one message per displayable record, each converted from one of them |
| MessageView.NormaliseRecordsAppend | src/modules/messages/components/message-view-form.tsx:52-74 | normalisation works record by record, so it distributes over concatenation and keeps order |
| MessageView.StoredPartsRoundTrip | src/modules/messages/components/message-view-form.tsx:55-65 | a record holding a serialised parts array shows exactly those parts, of every kind, in order |
| MessageView.FirstMessageShownAsText | src/modules/messages/components/message-view-form.tsx:61-72 | a chat's first message, stored as raw text that is not a JSON array, shows as one user text part |
| MessageView.RenderPart | src/modules/messages/components/message-view-form.tsx:165-200 | text renders a bubble with the role, reasoning a reasoning block, a step marker a divider iff it is not the first part; anything else renders nothing |
| MessageView.RenderParts | src/modules/messages/components/message-view-form.tsx:164-201 | rendering a message's parts throws iff one of them is null, and yields at most one node per part |
| MessageView.RenderPartsAppend | src/modules/messages/components/message-view-form.tsx:164-201 | the parts `a + b` render to the nodes of `a` followed by those of `b`, with `b`'s indices continuing after `a`'s; a null part anywhere throws |
| MessageView.RenderOnePart | src/modules/messages/components/message-view-form.tsx:164-201 | a single `null` part throws, a primitive renders nothing, and an object renders its `switch` case's node or nothing; with the append lemma this fixes every message's nodes in order |
| MessageView.DividersAfterFirst | src/modules/messages/components/message-view-form.tsx:189-197 | past the first part, dividers are exactly as many as step markers |
| MessageView.DividersOfMessage | src/modules/messages/components/message-view-form.tsx:189-197 | a message draws one divider per step marker after its first part |
| MessageView.RenderMessages | src/modules/messages/components/message-view-form.tsx:162-203 | rendering all messages throws iff some message holds a null part |
| MessageView.RenderMessagesAppend | src/modules/messages/components/message-view-form.tsx:162-203 | the messages `a + b` render to the nodes of `a` followed by those of `b`, or throw when either does |
| MessageView.RenderOneMessage | src/modules/messages/components/message-view-form.tsx:162-165 | one message renders its own parts, indexed from 0, under its role |
| MessageView.Render | src/modules/messages/components/message-view-form.tsx:150-204 | the empty state shows iff there are neither stored nor live messages; the render throws iff some message holds a null part; otherwise the thread is the history's nodes followed by the live messages' nodes |
| MessageView.BlankChatShowsEmptyState | src/modules/messages/components/message-view-form.tsx:49-74 | a chat whose records are all blank or id-less, or whose data has not loaded, shows the empty state |
| MessageView.CreatedChatLocation | src/modules/chat/hooks/chat.ts:36 | creating a chat navigates to the chat's path with the auto-trigger flag set |
| MessageView.AtMostOneAutoSend | src/modules/messages/components/message-view-form.tsx:88-99 | while the registry records every automatic send, a chat gets at most one, and none unless it is in the registry |
| MessageView.RecordAutoSend | src/modules/messages/components/message-view-form.tsx:98-110 | marking a chat before sending its continuation keeps the registry invariant |
| MessageView.ChatView.constructor | src/modules/messages/components/message-view-form.tsx:40-47 | a fresh mount starts with the guard clear, empty input, the chat's model selected and nothing sent |
| MessageView.ChatView.AutoTrigger | src/modules/messages/components/message-view-form.tsx:88-122 | the effect fires iff the guard is clear, the flag is set, the chat is untriggered, a model is selected and the last stored message is the user's; firing sets the guard, marks the chat, sends one continuation with the model, chat id and skipUserMessage, and drops the flag; otherwise nothing changes |
| MessageView.ChatView.SyncSelectedModel | src/modules/messages/components/message-view-form.tsx:82-86 | the chat's model is taken only when it is present and no model is selected yet |
| MessageView.ChatView.SetInput | src/modules/messages/components/message-view-form.tsx:219 | the input becomes the typed text |
| MessageView.ChatView.HandleSubmit | src/modules/messages/components/message-view-form.tsx:124-137 | a blank input sends nothing; otherwise the input is sent with the model and chat id and the field empties |
| MessageView.ChatView.Navigate | src/modules/messages/components/message-view-form.tsx:45-47 | the view reads its flag from the new location |
| MessageView.ChatView.Remount | src/modules/messages/components/message-view-form.tsx:40-43 | a new mount clears the guard and the input and reselects the chat's model; the session registry and what was sent stay |
| PromptInput.MatchesAcceptCases | src/components/ai-elements/prompt-input.tsx:220-227 | an absent or blank accept admits every file; one naming the image wildcard admits exactly image types; any other admits every file |
| PromptInput.ImageAcceptExample | src/components/ai-elements/prompt-input.tsx:220-227 | under the image wildcard a PNG passes and a PDF does not |
| PromptInput.AcceptedFiles | src/components/ai-elements/prompt-input.tsx:232 | exactly the incoming files that match accept |
| PromptInput.SizedFiles | src/components/ai-elements/prompt-input.tsx:237-239 | exactly the files within the size limit, with 0 or no limit admitting all |
| PromptInput.Capacity | src/components/ai-elements/prompt-input.tsx:248-251 | the room left is maxFiles minus the list length, and never negative |
| PromptInput.PlanAdd | src/components/ai-elements/prompt-input.tsx:229-259 | rejected with `accept` iff no file matches, with `max_file_size` iff some match but none fits; otherwise the appended files match and fit, keep their order, are cut to the capacity (reporting `max_files` iff some were cut), and never take the list past maxFiles |
| PromptInput.Stamp | src/components/ai-elements/prompt-input.tsx:260-268 | one file attachment per file, in order, with consecutive fresh ids and the file's type and name |
| PromptInput.Attachments.Add | src/components/ai-elements/prompt-input.tsx:229-272 | the list and error log change exactly as the add decision says, ids stay distinct and the list stays within maxFiles |
| PromptInput.Attachments.AppendStamped | src/components/ai-elements/prompt-input.tsx:260-268 | the loop appends the stamped files and advances the id counter by their number |
| PromptInput.WithoutId | src/components/ai-elements/prompt-input.tsx:278 | exactly the attachments with another id remain |
| PromptInput.WithoutIdDistinct | src/components/ai-elements/prompt-input.tsx:274-280 | removal keeps the ids distinct |
| PromptInput.WithoutIdAbsent | src/components/ai-elements/prompt-input.tsx:274-280 | removing an id no attachment has changes nothing |
| PromptInput.WithoutIdRemovesOne | src/components/ai-elements/prompt-input.tsx:274-280 | removing a present id from distinct ids removes exactly one attachment |
| PromptInput.Attachments.Remove | src/components/ai-elements/prompt-input.tsx:274-280 | the list loses the attachment with that id and keeps the rest in order |
| PromptInput.Attachments.Clear | src/components/ai-elements/prompt-input.tsx:282-287 | the list becomes empty |
| PromptInput.StripIds | src/components/ai-elements/prompt-input.tsx:352-358 | each attachment is handed on without its id, in order |
| PromptInput.Attachments.Submit | src/components/ai-elements/prompt-input.tsx:349-363 | the handler receives the text (or "") and the attachments without ids, and the list is cleared |
| PromptInput.RequestsSubmit | src/components/ai-elements/prompt-input.tsx:417-422 | only Enter submits, and Enter submits iff neither Shift nor an input-method composition is active |
| PromptInput.SubmitIcon | src/components/ai-elements/prompt-input.tsx:538-547 | spinner iff submitted, stop square iff streaming, cross iff error, send arrow otherwise |
| ChatActions.Title | src/modules/chat/actions/index.ts:32 | a content of at most 50 characters is its own title; a longer one is cut to 50 with "..." appended; never more than 53 |
| ChatActions.WithoutChat | src/modules/chat/actions/index.ts:124-128 | exactly the chats with another id remain |
| ChatActions.WithoutChatAscending | src/modules/chat/actions/index.ts:124-128 | deleting keeps ids distinct and creation order ascending |
| ChatActions.ChatDb.CreateChatWithMessage | src/modules/chat/actions/index.ts:19-58 | signed out gives "Unauthorized user", blank content gives "Message content is required", a store failure gives "Failed to create chat", all leaving the store unchanged; otherwise one chat is appended with the title, model and owner and one USER message of type NORMAL with the content |
| ChatActions.ChatDb.GetAllChats | src/modules/chat/actions/index.ts:60-95 | signed out or a store failure gives the error; otherwise exactly the caller's chats, strictly newest first |
| ChatActions.ChatDb.DeleteChat | src/modules/chat/actions/index.ts:97-142 | signed out, a store failure, or a chat the caller does not own gives its error and changes nothing; otherwise the chat is removed and every other chat stays |
| WelcomeTabs.TabsWellFormed | src/modules/chat/components/chat-welcome-tabs.tsx:15-56 | four tabs with distinct names, four prompts each |
| WelcomeTabs.UserNameOrDefault | src/modules/chat/components/chat-welcome-tabs.tsx:64 | a missing name defaults to "John Doe" |
| WelcomeTabs.FirstNameAsWritten | src/modules/chat/components/chat-welcome-tabs.tsx:69 | the text before the first space when it is non-empty; the whole name when the space is in front; and, without a space, all but the last character (a one-character name is kept) |
| WelcomeTabs.FirstName | src/modules/chat/components/chat-welcome-tabs.tsx:69 | a prefix of the name: the whole name when it has no space, otherwise its non-empty first word followed by a space in the name, or the whole name when the name starts with a space |
| WelcomeTabs.FirstNameAsWrittenDiffers | src/modules/chat/components/chat-welcome-tabs.tsx:69 | the greeting matches the first word whenever the name has a space, and drops the last character of every one-word name of two or more characters |
| WelcomeTabs.OneWordNameTruncated | src/modules/chat/components/chat-welcome-tabs.tsx:69 | "Alice" is greeted as "Alic" where "Alice" is meant |
| WelcomeTabs.DefaultGreeting | src/modules/chat/components/chat-welcome-tabs.tsx:64-69 | with no name the greeting the component renders says "John", and so does the corrected first name |
| WelcomeTabs.SuggestionRows | src/modules/chat/components/chat-welcome-tabs.tsx:93-105 | one row per prompt in order, with a separator after every prompt but the last |
| WelcomeTabs.SeparatorCount | src/modules/chat/components/chat-welcome-tabs.tsx:101-103 | a list of n prompts draws n - 1 separators (none for no prompts) |
| WelcomeTabs.TabState.constructor | src/modules/chat/components/chat-welcome-tabs.tsx:67 | the first tab starts active |
| WelcomeTabs.TabState.SelectTab | src/modules/chat/components/chat-welcome-tabs.tsx:83 | clicking a tab makes it the active one |
| WelcomeTabs.TabState.Buttons | src/modules/chat/components/chat-welcome-tabs.tsx:79-89 | one button per tab, and exactly the active one uses the default variant |
| WelcomeTabs.TabState.Suggestions | src/modules/chat/components/chat-welcome-tabs.tsx:93-105 | the active tab's four prompts, row i holding prompt i, with three separators |

## Left out

- `JSON.parse` and `JSON.stringify` are parameters. Only the round-trip and non-blank properties are assumed, and only by the lemmas that need them.
- The AI SDK is not part of this model: `convertToModelMessages` is a parameter that may fail, and `streamText`, the streamed response, `regenerate` and `stop` are left out. So are the model provider and the system prompt.
- The request body's own parsing (`req.json()` throwing, a missing `messages` field) is left out: the route's outer `catch` is modelled only where the fallback conversion fails (`Post` returns `InternalError`).
- The route's console logging is left out. Only the one logged error of `onFinish` is kept, in the message table's error log.
- The database and authentication are parameters. The signed-in user is an `Option<User>`. A store call that throws is a `fails` flag, and a chat id the store generates is the `freshId` argument. `ChatActions.ChatDb.CreateChatWithMessage` treats a duplicate `freshId` like a throwing store.
- `revalidatePath` and the React Query caches are left out: they have no effect on the state modelled.
- The store's `createdAt` is a counter (`clock`), so ties between chats never occur. `ChatActions.ChatDb.GetAllChats` therefore promises a strictly descending order.
- `PromptInput.Attachments.Add`: attachment ids come from a counter instead of `nanoid()`. Object URLs (`createObjectURL`/`revokeObjectURL`) and the blob-to-data-URL conversion before submit are left out, so a submitted file part has no `url`.
- `PromptInput.PlanAdd`: `maxFiles` and `maxFileSize` are whole numbers in the model; the component takes them as JavaScript numbers, so a fractional, infinite or `NaN` limit is not modelled.
- `PromptInput.Attachments.Add`: React's batching of `setItems` with `onError` is not modelled. The add decision is taken against the list as it is when `add` runs.
- The prompt input's paste and drop handlers, the hidden file input's sync and the file dialog are left out: they feed `add` and change no modelled state.
- `MessageView.ChatView`: `hasChatBeenTriggered` and `markChatAsTriggered` come from a session store that is not part of this model (`src/modules/chat/store/chat-store.ts` defines only `activeChatId`). The model supplies that registry as the `ChatView.registry` set, kept across remounts.
- `MessageView.ChatView`: the auto-trigger effect is a method the caller invokes. React's scheduling of effects, the session store as a separate hook, the `isPending` spinner, the model list query and the `messages` of `useChat` are left out, apart from the live messages passed to `Render`.
- `Content.LowerAscii`: `toLowerCase` is modelled for ASCII letters only, because role names are ASCII enum values.
- `ChatActions.Title`: lengths count Dafny characters, not UTF-16 code units, so a title cut in the middle of a surrogate pair is not modelled.
- `Content.Join`: states only the empty and one-element cases; longer joins are defined but not characterised.
- The welcome tabs' icons, the `onMessageSelect` callback and all styling are left out: presentation only.

## Findings

| source | as written | input that shows it | evidently intended | confidence | as-written member | corrected member |
|---|---|---|---|---|---|---|
| src/modules/chat/components/chat-welcome-tabs.tsx:69 | `userName.slice(0, userName.indexOf(" "))`: with no space the end index is -1, and `slice` reads it as "drop the last character" | `userName = "Alice"` greets "Alic" | a one-word name is shown whole | high (not executed) | WelcomeTabs.FirstNameAsWritten, WelcomeTabs.OneWordNameTruncated | WelcomeTabs.FirstName, WelcomeTabs.FirstNameAsWrittenDiffers |

=== FILE: ChatActions.dfy ===
/** The server actions on chats: create a chat together with its first
    message, list the caller's chats newest first, and delete a chat the
    caller owns. The store is a class over the chat rows; the signed-in user
    and a failing store call are parameters. */
module ChatActions {
  import opened Seqs
  import opened Content

  datatype User = User(id: string)

  /** A message row created with a chat. */
  datatype ChatMessage = ChatMessage(content: string, messageRole: MessageRole, messageType: string, model: string)

  /** A chat row with its messages. */
  datatype Chat = Chat(id: string, title: string, model: string, userId: string, createdAt: int, messages: seq<ChatMessage>)

  /** What every action returns. */
  datatype ActionResponse<T> = ActionResponse(success: bool, message: string, data: Option<T>)

  /** The failure response carrying `message`. */
  function Failure<T>(message: string): (r: ActionResponse<T>)
    ensures !r.success && r.message == message && r.data.None?
  {
    ActionResponse(false, message, None)
  }

  const TITLE_LENGTH := 50

  /** The chat's title: the first 50 characters of the content, with `"..."` when it was longer. */
  function Title(content: string): (t: string)
    ensures |t| <= TITLE_LENGTH + 3
    ensures |content| <= TITLE_LENGTH ==> t == content
    ensures |content| > TITLE_LENGTH ==> t == content[..TITLE_LENGTH] + "..."
    ensures StartsWith(t, if |content| <= TITLE_LENGTH then content else content[..TITLE_LENGTH])
  {
    JsSlice(content, 0, TITLE_LENGTH) + (if |content| > TITLE_LENGTH then "..." else "")
  }

  /** The ids of the chats. */
  function Ids(chats: seq<Chat>): set<string>
  {
    set c | c in chats :: c.id
  }

  /** Row `a` may come before row `b`: a different id and an earlier creation time. */
  predicate Before(a: Chat, b: Chat)
  {
    a.id != b.id && a.createdAt < b.createdAt
  }

  /** Ids are distinct and creation times strictly increase along the rows. */
  predicate Ascending(chats: seq<Chat>)
  {
    Pairwise(Before, chats)
  }

  /** The user owns a chat with this id. */
  predicate OwnsChat(chats: seq<Chat>, userId: string, chatId: string)
  {
    exists c :: c in chats && c.id == chatId && c.userId == userId
  }

  /** The rows without the chat `chatId` (its messages go with it). */
  function WithoutChat(chats: seq<Chat>, chatId: string): (r: seq<Chat>)
    ensures forall c :: c in r <==> c in chats && c.id != chatId
  {
    Filter((c: Chat) => c.id != chatId, chats)
  }

  /** Deleting a row keeps the rest in order. */
  lemma WithoutChatAscending(chats: seq<Chat>, chatId: string)
    requires Ascending(chats)
    ensures Ascending(WithoutChat(chats, chatId))
  {
    FilterPairwise((c: Chat) => c.id != chatId, Before, chats);
  }

  /** The chat store. */
  class ChatDb {
    var chats: seq<Chat>
    /** The store's clock for `createdAt`; it only moves forward. */
    var clock: int

    ghost predicate Valid()
      reads this
    {
      Ascending(chats) && forall k :: 0 <= k < |chats| ==> chats[k].createdAt < clock
    }

    constructor ()
      ensures Valid() && chats == []
    {
      chats := [];
      clock := 0;
    }

    /** `createChatWithMessage`. `freshId` is the id the store generates;
        `fails` stands for a store call that throws. */
    method CreateChatWithMessage(user: Option<User>, content: string, model: string, freshId: string, fails: bool)
      returns (resp: ActionResponse<Chat>)
      requires Valid()
      modifies this
      ensures Valid()
      ensures user.None? ==> resp == Failure("Unauthorized user")
      ensures user.Some? && IsBlank(content) ==> resp == Failure("Message content is required")
      ensures user.Some? && !IsBlank(content) && (fails || freshId in Ids(old(chats))) ==>
                resp == Failure("Failed to create chat")
      ensures resp.success <==> user.Some? && !IsBlank(content) && !fails && freshId !in Ids(old(chats))
      ensures !resp.success ==> chats == old(chats)
      ensures resp.success ==>
                resp.message == "Chat created successfully" && resp.data.Some?
                && chats == old(chats) + [resp.data.value]
                && resp.data.value == Chat(freshId, Title(content), model, user.value.id, old(clock),
                                           [ChatMessage(content, USER, NORMAL, model)])
    {
      if user.None? {
        return Failure("Unauthorized user");
      }
      if content == "" || IsBlank(content) {
        return Failure("Message content is required");
      }
      var title := Title(content);
      if fails || freshId in Ids(chats) {
        return Failure("Failed to create chat");
      }
      var chat := Chat(freshId, title, model, user.value.id, clock, [ChatMessage(content, USER, NORMAL, model)]);
      chats := chats + [chat];
      clock := clock + 1;
      resp := ActionResponse(true, "Chat created successfully", Some(chat));
    }

    /** `getAllChats`: the caller's chats, newest first. */
    method GetAllChats(user: Option<User>, fails: bool) returns (resp: ActionResponse<seq<Chat>>)
      requires Valid()
      ensures user.None? ==> resp == Failure("Unauthorized user")
      ensures user.Some? && fails ==> resp == Failure("Failed to fetch chats")
      ensures user.Some? && !fails ==> resp.success && resp.message == "Chats fetched successfully" && resp.data.Some?
      ensures resp.success ==> forall c :: c in resp.data.value <==> c in chats && c.userId == user.value.id
      ensures resp.success ==> forall i, j :: 0 <= i < j < |resp.data.value| ==>
                                 resp.data.value[i].createdAt > resp.data.value[j].createdAt
    {
      if user.None? {
        return Failure("Unauthorized user");
      }
      if fails {
        return Failure("Failed to fetch chats");
      }
      var owner := user.value.id;
      var mine: seq<Chat> := [];
      var i := |chats|;
      while i > 0
        invariant 0 <= i <= |chats|
        invariant forall c :: c in mine <==> c in chats[i..] && c.userId == owner
        invariant forall a, b :: 0 <= a < b < |mine| ==> mine[a].createdAt > mine[b].createdAt
        invariant i < |chats| ==> forall k :: 0 <= k < |mine| ==> mine[k].createdAt >= chats[i].createdAt
      {
        i := i - 1;
        assert chats[i..] == [chats[i]] + chats[i + 1..];
        if chats[i].userId == owner {
          mine := mine + [chats[i]];
        }
      }
      resp := ActionResponse(true, "Chats fetched successfully", Some(mine));
    }

    /** `deleteChat`: only a chat the caller owns is deleted. */
    method DeleteChat(user: Option<User>, chatId: string, fails: bool) returns (resp: ActionResponse<()>)
      requires Valid()
      modifies this`chats
      ensures Valid()
      ensures user.None? ==> resp == Failure("Unauthorized user")
      ensures user.Some? && fails ==> resp == Failure("Failed to delete chat")
      ensures user.Some? && !fails && !OwnsChat(old(chats), user.value.id, chatId) ==> resp == Failure("Chat not found")
      ensures resp.success <==> user.Some? && !fails && OwnsChat(old(chats), user.value.id, chatId)
      ensures resp.success ==> resp.message == "Chat deleted successfully" && chats == WithoutChat(old(chats), chatId)
      ensures !resp.success ==> chats == old(chats)
    {
      if user.None? {
        return Failure("Unauthorized user");
      }
      if fails {
        return Failure("Failed to delete chat");
      }
      if !OwnsChat(chats, user.value.id, chatId) {
        return Failure("Chat not found");
      }
      WithoutChatAscending(chats, chatId);
      chats := WithoutChat(chats, chatId);
      resp := ActionResponse(true, "Chat deleted successfully", None);
    }
  }
}

=== FILE: ChatRoute.dfy ===
/** The chat API route: it normalises stored history, assembles it with the
    request's new messages, converts them for the model (with a text-only
    fallback), and after the stream finishes decides which of the user and
    assistant records to write. */
module ChatRoute {
  import opened Seqs
  import opened Content

  /** A message in the AI SDK's UI shape. History messages always carry
      `parts`; a request's new message may carry `parts` or only `content`. */
  datatype UIMessage = UIMessage(id: string, role: string, parts: Option<seq<Part>>, content: Option<string>, createdAt: Option<int>)

  /** Every part of `m` is a text part, and it has at least one. */
  predicate HasTextParts(m: UIMessage)
  {
    m.parts.Some? && |m.parts.value| > 0 && forall k :: 0 <= k < |m.parts.value| ==> m.parts.value[k].kind == TEXT
  }

  // ---------------------------------------------------------------------
  // Normalising stored history
  // ---------------------------------------------------------------------

  /** The parts of a parsed array whose `type` is `"text"`, in their order. */
  function TextParts(elems: seq<Elem>): (r: seq<Part>)
    ensures |r| <= |elems|
    ensures forall k :: 0 <= k < |r| ==> r[k].kind == TEXT
    ensures forall p :: p in r <==> Obj(p) in elems && p.kind == TEXT
  {
    if elems == [] then []
    else
      var rest := TextParts(elems[1..]);
      assert forall e :: e in elems <==> e == elems[0] || e in elems[1..];
      if elems[0].Obj? && elems[0].part.kind == TEXT then [elems[0].part] + rest else rest
  }

  /** Filtering for text works element by element, so it keeps the text
      parts' order and multiplicity. */
  lemma {:induction false} TextPartsAppend(a: seq<Elem>, b: seq<Elem>)
    ensures TextParts(a + b) == TextParts(a) + TextParts(b)
  {
    if a == [] {
      assert a + b == b;
    } else {
      assert (a + b)[1..] == a[1..] + b;
      TextPartsAppend(a[1..], b);
    }
  }

  predicate IsTextPart(p: Part)
  {
    p.kind == TEXT
  }

  /** On an array of part objects, keeping the text parts is exactly the
      order-preserving filter by `type === "text"`. */
  lemma {:induction false} TextPartsOfObjs(parts: seq<Part>)
    ensures TextParts(Objs(parts)) == Filter(IsTextPart, parts)
  {
    if parts != [] {
      assert Objs(parts)[1..] == Objs(parts[1..]);
      TextPartsOfObjs(parts[1..]);
    }
  }

  /** The `parts.filter(...)` call runs to the end without throwing: the
      content parsed, to an array, and no element is `null`. */
  predicate FiltersCleanly(parsed: Option<Json>)
  {
    parsed.Some? && parsed.value.JArray? && Nullish !in parsed.value.elems
  }

  /** The salvage branch: the raw content as one text part. */
  function Salvage(msg: StoredMessage): UIMessage
  {
    UIMessage(msg.id, LowerAscii(msg.messageRole), Some([TextPart(msg.content)]), None, Some(msg.createdAt))
  }

  /** `convertStoredMessageToUI`: `None` stands for the `null` it returns. */
  function ConvertStoredMessageToUI(parse: Parser, msg: StoredMessage): (r: Option<UIMessage>)
    ensures r.Some? ==> HasTextParts(r.value)
    ensures r.Some? ==> r.value.id == msg.id && r.value.role == LowerAscii(msg.messageRole)
                        && r.value.createdAt == Some(msg.createdAt)
    ensures !FiltersCleanly(parse(msg.content)) ==> r == Some(Salvage(msg))
    ensures FiltersCleanly(parse(msg.content)) ==>
              (r.None? <==> TextParts(parse(msg.content).value.elems) == [])
              && (r.Some? ==> r.value.parts == Some(TextParts(parse(msg.content).value.elems)))
  {
    var parsed := parse(msg.content);
    if !FiltersCleanly(parsed) then Some(Salvage(msg))
    else
      var valid := TextParts(parsed.value.elems);
      if |valid| == 0 then None
      else Some(UIMessage(msg.id, LowerAscii(msg.messageRole), Some(valid), None, Some(msg.createdAt)))
  }

  /** The history mapped through `convertStoredMessageToUI` with the nulls removed. */
  function NormaliseHistory(parse: Parser, stored: seq<StoredMessage>): (r: seq<UIMessage>)
    ensures |r| <= |stored|
    ensures forall k :: 0 <= k < |r| ==> HasTextParts(r[k])
    ensures forall m :: m in r ==> exists k :: 0 <= k < |stored| && ConvertStoredMessageToUI(parse, stored[k]) == Some(m)
    ensures forall k :: 0 <= k < |stored| && ConvertStoredMessageToUI(parse, stored[k]).Some? ==>
              ConvertStoredMessageToUI(parse, stored[k]).value in r
  {
    if stored == [] then []
    else
      var rest := NormaliseHistory(parse, stored[1..]);
      assert forall k :: 1 <= k < |stored| ==> stored[k] == stored[1..][k - 1];
      match ConvertStoredMessageToUI(parse, stored[0])
      case None => rest
      case Some(m) => [m] + rest
  }

  /** Normalisation works record by record, so it keeps the records' order. */
  lemma {:induction false} NormaliseHistoryAppend(parse: Parser, a: seq<StoredMessage>, b: seq<StoredMessage>)
    ensures NormaliseHistory(parse, a + b) == NormaliseHistory(parse, a) + NormaliseHistory(parse, b)
  {
    if a == [] {
      assert a + b == b;
    } else {
      assert (a + b)[1..] == a[1..] + b;
      NormaliseHistoryAppend(parse, a[1..], b);
    }
  }

  /** Wherever it stands, a record whose content does not parse is never
      dropped: it appears as its raw text, after everything normalised from
      the records before it and before everything from the records after it. */
  lemma UnparsableRecordKept(parse: Parser, a: seq<StoredMessage>, m: StoredMessage, b: seq<StoredMessage>)
    requires parse(m.content).None?
    ensures NormaliseHistory(parse, a + [m] + b)
            == NormaliseHistory(parse, a) + [Salvage(m)] + NormaliseHistory(parse, b)
  {
    assert [m][1..] == [];
    assert NormaliseHistory(parse, [m]) == [Salvage(m)] by {
      assert ConvertStoredMessageToUI(parse, m) == Some(Salvage(m));
    }
    NormaliseHistoryAppend(parse, a, [m]);
    NormaliseHistoryAppend(parse, a + [m], b);
  }

  /** A message whose content never parses survives normalisation verbatim,
      so a history of such messages keeps every message, in order. */
  lemma {:induction false} UnparsableHistoryKept(parse: Parser, stored: seq<StoredMessage>)
    requires forall k :: 0 <= k < |stored| ==> parse(stored[k].content).None?
    ensures |NormaliseHistory(parse, stored)| == |stored|
    ensures forall k :: 0 <= k < |stored| ==>
              NormaliseHistory(parse, stored)[k].parts == Some([TextPart(stored[k].content)])
  {
    if stored != [] {
      UnparsableHistoryKept(parse, stored[1..]);
    }
  }

  // ---------------------------------------------------------------------
  // Serialising parts for the store
  // ---------------------------------------------------------------------

  /** The parts a message is saved with: its `parts` array when there is
      one, otherwise one text part holding `content` (or `""`). */
  function PartsToSave(m: UIMessage): (r: seq<Part>)
    ensures m.parts.Some? ==> r == m.parts.value
    ensures m.parts.None? ==> r == [TextPart(OrEmpty(m.content))]
  {
    if m.parts.Some? then m.parts.value else [TextPart(OrEmpty(m.content))]
  }

  /** `extractPartsAsJSON`: the saved text parses back to the parts it was
      saved with, whatever `JSON.parse` is, as long as it inverts `JSON.stringify`. */
  function ExtractPartsAsJson(stringify: Printer, m: UIMessage): (r: string)
    ensures forall parse: Parser {:trigger RoundTrips(parse, stringify)} :: RoundTrips(parse, stringify) ==>
              parse(r) == Some(JArray(Objs(PartsToSave(m)))) && !IsBlank(r)
  {
    stringify(JArray(Objs(PartsToSave(m))))
  }

  /** Keeping the text parts of a list of text parts changes nothing. */
  lemma TextPartsOfTextParts(parts: seq<Part>)
    requires forall k :: 0 <= k < |parts| ==> parts[k].kind == TEXT
    ensures TextParts(Objs(parts)) == parts
  {
    TextPartsOfObjs(parts);
    FilterKeepsAll(IsTextPart, parts);
  }

  /** Normalising the serialisation of a message made of text parts gives
      its parts back: `extractPartsAsJSON` and `convertStoredMessageToUI`
      are inverse on text-only messages. */
  lemma SavedTextPartsRoundTrip(parse: Parser, stringify: Printer, m: UIMessage, id: string, role: string, createdAt: int)
    requires RoundTrips(parse, stringify)
    requires HasTextParts(m)
    ensures ConvertStoredMessageToUI(parse, StoredMessage(id, ExtractPartsAsJson(stringify, m), role, createdAt))
            == Some(UIMessage(id, LowerAscii(role), m.parts, None, Some(createdAt)))
  {
    var j := JArray(Objs(m.parts.value));
    assert parse(stringify(j)) == Some(j);
    TextPartsOfTextParts(m.parts.value);
  }

  /** A message with no parts array is saved as its `content` (or `""`) and
      comes back as that one text part. */
  lemma SavedContentRoundTrip(parse: Parser, stringify: Printer, m: UIMessage, id: string, role: string, createdAt: int)
    requires RoundTrips(parse, stringify)
    requires m.parts.None?
    ensures ConvertStoredMessageToUI(parse, StoredMessage(id, ExtractPartsAsJson(stringify, m), role, createdAt))
            == Some(UIMessage(id, LowerAscii(role), Some([TextPart(OrEmpty(m.content))]), None, Some(createdAt)))
  {
    var j := JArray([Obj(TextPart(OrEmpty(m.content)))]);
    assert parse(stringify(j)) == Some(j);
    assert TextParts(j.elems) == [TextPart(OrEmpty(m.content))];
  }

  /** A saved response with no text part at all (only reasoning or step
      markers) disappears from the history the next request sees. */
  lemma {:induction false} TextlessResponseDropped(parse: Parser, stringify: Printer, m: UIMessage, id: string, role: string, createdAt: int)
    requires RoundTrips(parse, stringify)
    requires m.parts.Some?
    requires forall k :: 0 <= k < |m.parts.value| ==> m.parts.value[k].kind != TEXT
    ensures ConvertStoredMessageToUI(parse, StoredMessage(id, ExtractPartsAsJson(stringify, m), role, createdAt)) == None
  {
    var j := JArray(Objs(m.parts.value));
    assert parse(stringify(j)) == Some(j);
    TextPartsOfTextless(m.parts.value);
  }

  /** Keeping the text parts of a list with no text part leaves nothing. */
  lemma {:induction false} TextPartsOfTextless(parts: seq<Part>)
    requires forall k :: 0 <= k < |parts| ==> parts[k].kind != TEXT
    ensures TextParts(Objs(parts)) == []
  {
    if parts != [] {
      assert Objs(parts)[1..] == Objs(parts[1..]);
      TextPartsOfTextless(parts[1..]);
    }
  }

  // ---------------------------------------------------------------------
  // Assembling the request
  // ---------------------------------------------------------------------

  /** The request's `messages` field: an array, or a single message. */
  datatype Payload = Many(msgs: seq<UIMessage>) | Single(msg: UIMessage)

  /** `Array.isArray(newMessages) ? newMessages : [newMessages]`. */
  function NormaliseNew(p: Payload): (r: seq<UIMessage>)
    ensures p.Single? ==> r == [p.msg]
    ensures p.Many? ==> r == p.msgs
  {
    match p
    case Many(msgs) => msgs
    case Single(msg) => [msg]
  }

  /** The list handed to the model conversion: history, then the new messages. */
  function Assemble(history: seq<UIMessage>, p: Payload): (r: seq<UIMessage>)
    ensures |r| == |history| + |NormaliseNew(p)|
    ensures r[..|history|] == history && r[|history|..] == NormaliseNew(p)
  {
    history + NormaliseNew(p)
  }

  /** A message in the model's shape, as the fallback builds it. */
  datatype ModelMessage = ModelMessage(role: string, content: string)

  /** The `text` of every text part, in order (a missing `text` joins as `""`). */
  function TextsOf(parts: seq<Part>): (r: seq<string>)
    ensures |r| <= |parts|
    ensures |r| == |Filter(IsTextPart, parts)|
    ensures forall k :: 0 <= k < |r| ==> r[k] == OrEmpty(Filter(IsTextPart, parts)[k].text)
  {
    var texts := Filter(IsTextPart, parts);
    seq(|texts|, k requires 0 <= k < |texts| => OrEmpty(texts[k].text))
  }

  /** Collecting the texts works part by part, so the texts keep their order. */
  lemma TextsOfAppend(a: seq<Part>, b: seq<Part>)
    ensures TextsOf(a + b) == TextsOf(a) + TextsOf(b)
  {
    FilterAppend(IsTextPart, a, b);
    var ta, tb := Filter(IsTextPart, a), Filter(IsTextPart, b);
    var whole, ra, rb := TextsOf(a + b), TextsOf(a), TextsOf(b);
    forall k | 0 <= k < |whole| ensures whole[k] == (ra + rb)[k] {
      if k < |ra| {
        assert (ta + tb)[k] == ta[k];
      } else {
        assert (ta + tb)[k] == tb[k - |ta|];
      }
    }
  }

  /** One message of the fallback conversion: its text parts joined with a newline. */
  function FallbackMessage(m: UIMessage): ModelMessage
    requires m.parts.Some?
  {
    ModelMessage(m.role, Join(TextsOf(m.parts.value), "\n"))
  }

  /** The fallback's `map`, over messages that all have a `parts` array. */
  function FallbackMessages(msgs: seq<UIMessage>): (r: seq<ModelMessage>)
    requires forall k :: 0 <= k < |msgs| ==> msgs[k].parts.Some?
    ensures |r| == |msgs|
    ensures forall k :: 0 <= k < |msgs| ==> r[k] == FallbackMessage(msgs[k])
  {
    seq(|msgs|, k requires 0 <= k < |msgs| && msgs[k].parts.Some? => FallbackMessage(msgs[k]))
  }

  /** The fallback's final `filter`: the message has text. */
  predicate HasContent(mm: ModelMessage)
  {
    mm.content != ""
  }

  /** Every message has a `parts` array. */
  predicate AllHaveParts(msgs: seq<UIMessage>)
  {
    forall k :: 0 <= k < |msgs| ==> msgs[k].parts.Some?
  }

  /** The fallback conversion: `None` when some message has no `parts`
      array (reading `.filter` from it throws); otherwise every message's
      joined text, with the messages whose text is empty removed. */
  function FallbackConvert(msgs: seq<UIMessage>): (r: Option<seq<ModelMessage>>)
    ensures r.None? <==> exists k :: 0 <= k < |msgs| && msgs[k].parts.None?
    ensures r.Some? ==> |r.value| <= |msgs|
    ensures r.Some? ==> forall k :: 0 <= k < |r.value| ==> r.value[k].content != ""
    ensures r.Some? ==> forall k :: 0 <= k < |msgs| && FallbackMessage(msgs[k]).content != "" ==>
                          FallbackMessage(msgs[k]) in r.value
    ensures r.Some? ==> forall mm :: mm in r.value ==> exists k :: 0 <= k < |msgs| && mm == FallbackMessage(msgs[k])
    ensures |msgs| == 1 && msgs[0].parts.Some? ==>
              r == Some(if FallbackMessage(msgs[0]).content != "" then [FallbackMessage(msgs[0])] else [])
  {
    if !AllHaveParts(msgs) then None
    else
      var all := FallbackMessages(msgs);
      var r := Filter(HasContent, all);
      assert forall mm :: mm in r ==> mm in all;
      if |msgs| == 1 then
        assert all == [FallbackMessage(msgs[0])];
        FilterSingleton(HasContent, all[0]);
        Some(r)
      else Some(r)
  }

  /** The fallback converts message by message: the conversation reaches the
      model in its order, one entry per message with text. */
  lemma FallbackConvertAppend(a: seq<UIMessage>, b: seq<UIMessage>)
    requires AllHaveParts(a) && AllHaveParts(b)
    ensures FallbackConvert(a + b).Some?
    ensures FallbackConvert(a + b).value == FallbackConvert(a).value + FallbackConvert(b).value
  {
    assert AllHaveParts(a + b) by {
      forall k | 0 <= k < |a + b| ensures (a + b)[k].parts.Some? {
        if k < |a| { assert (a + b)[k] == a[k]; } else { assert (a + b)[k] == b[k - |a|]; }
      }
    }
    assert FallbackMessages(a + b) == FallbackMessages(a) + FallbackMessages(b);
    FilterAppend(HasContent, FallbackMessages(a), FallbackMessages(b));
  }

  /** The text of a message made of text parts reaches the model in full:
      one part is kept verbatim. */
  lemma FallbackSinglePart(m: UIMessage, text: string)
    requires m.parts == Some([TextPart(text)])
    ensures FallbackMessage(m) == ModelMessage(m.role, text)
  {
    assert TextsOf([TextPart(text)]) == [text];
  }

  /** The body of a chat request. */
  datatype ChatRequest = ChatRequest(chatId: Option<string>, messages: Payload, model: string, skipUserMessage: bool)

  /** What the route hands to the model stream, or the 500 response. */
  datatype PostOutcome =
    | Streamed(modelMessages: seq<ModelMessage>, originalMessages: seq<UIMessage>, usedFallback: bool)
    | InternalError

  /** The normalised history for a request: none without a (non-empty) chat id. */
  function HistoryFor(parse: Parser, req: ChatRequest, previous: seq<StoredMessage>): (r: seq<UIMessage>)
    ensures !Truthy(req.chatId) ==> r == []
    ensures Truthy(req.chatId) ==> r == NormaliseHistory(parse, previous)
    ensures forall k :: 0 <= k < |r| ==> HasTextParts(r[k])
  {
    if Truthy(req.chatId) then NormaliseHistory(parse, previous) else []
  }

  /** `POST` up to the call to `streamText`. `previous` is what the store
      returns for the chat, oldest first; `convert` is the SDK's
      `convertToModelMessages`, `None` when it throws. */
  function Post(parse: Parser, convert: seq<UIMessage> -> Option<seq<ModelMessage>>, req: ChatRequest, previous: seq<StoredMessage>): (r: PostOutcome)
    ensures r.Streamed? ==> r.originalMessages == Assemble(HistoryFor(parse, req, previous), req.messages)
    ensures r.Streamed? ==> (r.usedFallback <==> convert(r.originalMessages).None?)
    ensures r.Streamed? && !r.usedFallback ==> Some(r.modelMessages) == convert(r.originalMessages)
    ensures r.Streamed? && r.usedFallback ==> Some(r.modelMessages) == FallbackConvert(r.originalMessages)
    ensures r.InternalError? <==>
              var all := Assemble(HistoryFor(parse, req, previous), req.messages);
              convert(all).None? && exists k :: 0 <= k < |all| && all[k].parts.None?
  {
    var all := Assemble(HistoryFor(parse, req, previous), req.messages);
    match convert(all)
    case Some(mm) => Streamed(mm, all, false)
    case None =>
      match FallbackConvert(all)
      case None => InternalError
      case Some(mm) => Streamed(mm, all, true)
  }

  /** Whatever the conversion does, every history message in the assembled
      list has at least one part, and with the fallback no model message is empty. */
  lemma PostNeverSendsEmpty(parse: Parser, convert: seq<UIMessage> -> Option<seq<ModelMessage>>, req: ChatRequest, previous: seq<StoredMessage>)
    requires Post(parse, convert, req, previous).Streamed?
    ensures var r := Post(parse, convert, req, previous);
            var h := HistoryFor(parse, req, previous);
            (forall k :: 0 <= k < |h| ==> r.originalMessages[k] == h[k] && HasTextParts(r.originalMessages[k]))
            && (r.usedFallback ==> forall k :: 0 <= k < |r.modelMessages| ==> r.modelMessages[k].content != "")
  {
    var r := Post(parse, convert, req, previous);
    var h := HistoryFor(parse, req, previous);
    assert r.originalMessages[..|h|] == h;
    forall k | 0 <= k < |h| ensures r.originalMessages[k] == h[k] {
      assert r.originalMessages[..|h|][k] == h[k];
    }
  }

  // ---------------------------------------------------------------------
  // Persisting the exchange (onFinish)
  // ---------------------------------------------------------------------

  /** A row for `db.message.createMany`. */
  datatype SaveRecord = SaveRecord(chatId: Option<string>, content: string, messageRole: MessageRole, model: string, messageType: string)

  /** A user record is written: the request did not ask to skip it and its last new message is from the user. */
  predicate SavesUser(req: ChatRequest)
  {
    var news := NormaliseNew(req.messages);
    !req.skipUserMessage && |news| > 0 && news[|news| - 1].role == "user"
  }

  /** An assistant record is written: the response has at least one part. */
  predicate SavesAssistant(response: Option<UIMessage>)
  {
    response.Some? && response.value.parts.Some? && |response.value.parts.value| > 0
  }

  /** The records `onFinish` collects, user first, then assistant. */
  function RecordsToSave(stringify: Printer, req: ChatRequest, response: Option<UIMessage>): (r: seq<SaveRecord>)
    ensures |r| == (if SavesUser(req) then 1 else 0) + (if SavesAssistant(response) then 1 else 0)
    ensures r == [] <==> !SavesUser(req) && !SavesAssistant(response)
    ensures forall k :: 0 <= k < |r| ==>
              r[k].chatId == req.chatId && r[k].model == req.model && r[k].messageType == NORMAL
    ensures forall k :: 0 <= k < |r| ==> (r[k].messageRole == USER <==> k == 0 && SavesUser(req))
    ensures SavesUser(req) ==>
              var news := NormaliseNew(req.messages);
              r[0].content == ExtractPartsAsJson(stringify, news[|news| - 1])
    ensures SavesAssistant(response) ==> r[|r| - 1].content == ExtractPartsAsJson(stringify, response.value)
  {
    var news := NormaliseNew(req.messages);
    var user := if SavesUser(req)
      then [SaveRecord(req.chatId, ExtractPartsAsJson(stringify, news[|news| - 1]), USER, req.model, NORMAL)]
      else [];
    var assistant := if SavesAssistant(response)
      then [SaveRecord(req.chatId, ExtractPartsAsJson(stringify, response.value), ASSISTANT, req.model, NORMAL)]
      else [];
    user + assistant
  }

  /** `onFinish` building `messagesToSave` push by push. */
  method CollectRecordsToSave(stringify: Printer, req: ChatRequest, response: Option<UIMessage>) returns (toSave: seq<SaveRecord>)
    ensures toSave == RecordsToSave(stringify, req, response)
    ensures |toSave| <= 2
  {
    toSave := [];
    if !req.skipUserMessage {
      var news := NormaliseNew(req.messages);
      if |news| > 0 && news[|news| - 1].role == "user" {
        var userJson := ExtractPartsAsJson(stringify, news[|news| - 1]);
        toSave := toSave + [SaveRecord(req.chatId, userJson, USER, req.model, NORMAL)];
      }
    }
    if response.Some? && response.value.parts.Some? && |response.value.parts.value| > 0 {
      var assistantJson := ExtractPartsAsJson(stringify, response.value);
      toSave := toSave + [SaveRecord(req.chatId, assistantJson, ASSISTANT, req.model, NORMAL)];
    }
  }

  /** The message table of the store, with the error log of the route. */
  class MessageTable {
    var rows: seq<SaveRecord>
    var errorLog: seq<string>

    constructor ()
      ensures rows == [] && errorLog == []
    {
      rows := [];
      errorLog := [];
    }

    /** The end of `onFinish`: write the collected records in one batch when
        there are any; a failed write (`writeFails`) is caught and logged and
        leaves the rows as they were. */
    method OnFinish(stringify: Printer, req: ChatRequest, response: Option<UIMessage>, writeFails: bool)
      modifies this
      ensures var toSave := RecordsToSave(stringify, req, response);
              rows == (if toSave != [] && !writeFails then old(rows) + toSave else old(rows))
      ensures var toSave := RecordsToSave(stringify, req, response);
              errorLog == (if toSave != [] && writeFails then old(errorLog) + ["Error saving messages"] else old(errorLog))
    {
      var toSave := CollectRecordsToSave(stringify, req, response);
      if |toSave| > 0 {
        if writeFails {
          errorLog := errorLog + ["Error saving messages"];
        } else {
          rows := rows + toSave;
        }
      }
    }
  }
}

=== FILE: Content.dfy ===
/** The shapes shared by the server route and the client view: JavaScript
    string operations the chat code relies on, the JSON values a stored
    message's content can parse to, and the stored message record itself. */
module Content {
  import opened Seqs

  // ---------------------------------------------------------------------
  // JavaScript string operations
  // ---------------------------------------------------------------------

  /** The characters `String.prototype.trim` strips: ECMAScript WhiteSpace and LineTerminator. */
  predicate IsWhitespace(c: char)
  {
    c == '\t' || c == '\n' || c == '\U{000B}' || c == '\U{000C}' || c == '\r' || c == ' '
    || c == '\U{00A0}' || c == '\U{1680}' || ('\U{2000}' <= c <= '\U{200A}')
    || c == '\U{2028}' || c == '\U{2029}' || c == '\U{202F}' || c == '\U{205F}'
    || c == '\U{3000}' || c == '\U{FEFF}'
  }

  /** `s.trim() === ""`, equivalently `!s.trim()`: nothing but whitespace (the empty string included). */
  predicate IsBlank(s: string)
  {
    forall k :: 0 <= k < |s| ==> IsWhitespace(s[k])
  }

  /** `toLowerCase` on one character, for the ASCII letters. */
  function LowerChar(c: char): (d: char)
    ensures 'A' <= c <= 'Z' ==> 'a' <= d <= 'z' && d as int == c as int + 32
    ensures !('A' <= c <= 'Z') ==> d == c
  {
    if 'A' <= c <= 'Z' then (c as int - 'A' as int + 'a' as int) as char else c
  }

  /** `s.toLowerCase()` for ASCII letters (every other character is kept). */
  function LowerAscii(s: string): (r: string)
    ensures |r| == |s|
    ensures forall k :: 0 <= k < |s| ==> r[k] == LowerChar(s[k])
  {
    if s == [] then [] else [LowerChar(s[0])] + LowerAscii(s[1..])
  }

  /** `s.startsWith(prefix)`. */
  predicate StartsWith(s: string, prefix: string)
  {
    |prefix| <= |s| && s[..|prefix|] == prefix
  }

  /** `s.includes(sub)`: `sub` occurs somewhere in `s`. */
  predicate Includes(s: string, sub: string)
  {
    exists i :: 0 <= i <= |s| && StartsWith(s[i..], sub)
  }

  /** `s.indexOf(c)` for a one-character needle: the first index of `c`, or -1. */
  function IndexOf(s: string, c: char): (r: int)
    ensures -1 <= r < |s|
    ensures r == -1 <==> c !in s
    ensures 0 <= r ==> s[r] == c && c !in s[..r]
  {
    if s == [] then -1
    else if s[0] == c then 0
    else
      var i := IndexOf(s[1..], c);
      assert s == [s[0]] + s[1..];
      if i == -1 then -1 else 1 + i
  }

  /** Where `slice` puts a relative index: negative counts from the end, and the result is clamped to `[0, len]`. */
  function SliceIndex(i: int, len: nat): (r: nat)
    ensures r <= len
    ensures 0 <= i <= len ==> r == i
    ensures -(len as int) <= i < 0 ==> r as int == len as int + i
    ensures i < -(len as int) ==> r == 0
    ensures i > len ==> r == len
  {
    if i < 0 then (if len + i < 0 then 0 else len + i)
    else if i > len then len
    else i
  }

  /** `s.slice(start, end)` with JavaScript's handling of negative and out-of-range indices. */
  function JsSlice(s: string, start: int, end: int): (r: string)
    ensures |r| <= |s|
    ensures 0 <= start <= end <= |s| ==> r == s[start..end]
    ensures 0 <= start && -|s| <= end < 0 ==> r == (if start < |s| + end then s[start..|s| + end] else "")
    ensures 0 <= end <= start ==> r == ""
    ensures var a, b := SliceIndex(start, |s|), SliceIndex(end, |s|);
      |r| == (if a < b then b - a else 0) && forall k :: 0 <= k < |r| ==> r[k] == s[a + k]
  {
    var a, b := SliceIndex(start, |s|), SliceIndex(end, |s|);
    if a < b then s[a..b] else ""
  }

  /** JavaScript's `Array.prototype.join(sep)` on strings. */
  function Join(strs: seq<string>, sep: string): (r: string)
    ensures strs == [] ==> r == ""
    ensures |strs| == 1 ==> r == strs[0]
  {
    if strs == [] then ""
    else if |strs| == 1 then strs[0]
    else strs[0] + sep + Join(strs[1..], sep)
  }

  /** `s || ""` for an optional string. */
  function OrEmpty(s: Option<string>): string
  {
    if s.Some? then s.value else ""
  }

  /** The truthiness of an optional string: present and not empty. */
  predicate Truthy(s: Option<string>)
  {
    s.Some? && s.value != ""
  }

  // ---------------------------------------------------------------------
  // Message content as JSON
  // ---------------------------------------------------------------------

  const TEXT := "text"
  const REASONING := "reasoning"
  const STEP_START := "step-start"

  /** A content part: an object with a `type` tag and an optional `text`. */
  datatype Part = Part(kind: string, text: Option<string>)

  /** A plain text part `{ type: "text", text }`. */
  function TextPart(text: string): (p: Part)
    ensures p.kind == TEXT && p.text == Some(text)
  {
    Part(TEXT, Some(text))
  }

  /** An element of a parsed JSON array: an object with a string `type`
      (a part), `null` (reading `.type` from it throws), or anything else
      (a number, string, boolean, array or object without a string `type`:
      its `.type` is never `"text"`). */
  datatype Elem = Obj(part: Part) | Nullish | Primitive

  /** What `JSON.parse` returns: an array, or any other value. */
  datatype Json = JArray(elems: seq<Elem>) | NonArray

  /** `JSON.parse`: `None` when it throws. */
  type Parser = string -> Option<Json>

  /** `JSON.stringify`. */
  type Printer = Json -> string

  /** The properties of `JSON.parse`/`JSON.stringify` the model relies on:
      parsing what was printed gives the value back, and printed JSON is never
      blank (an array prints as `[...]`). */
  ghost predicate RoundTrips(parse: Parser, stringify: Printer)
  {
    forall j :: parse(stringify(j)) == Some(j) && !IsBlank(stringify(j))
  }

  /** Parts as JSON array elements. */
  function Objs(parts: seq<Part>): (r: seq<Elem>)
    ensures |r| == |parts|
    ensures forall k :: 0 <= k < |parts| ==> r[k] == Obj(parts[k])
  {
    if parts == [] then [] else [Obj(parts[0])] + Objs(parts[1..])
  }

  // ---------------------------------------------------------------------
  // Stored records
  // ---------------------------------------------------------------------

  /** The `MessageRole` enum of the database schema. */
  datatype MessageRole = USER | ASSISTANT

  /** The `NORMAL` value of the schema's `MessageType` enum, the type of every message the chat code writes. */
  const NORMAL := "NORMAL"

  /** The enum's stored spelling. */
  function RoleName(r: MessageRole): string
  {
    match r
    case USER => "USER"
    case ASSISTANT => "ASSISTANT"
  }

  /** Lower-casing a stored role gives the UI role names `"user"` and `"assistant"`. */
  lemma RoleNamesLowerCase()
    ensures LowerAscii(RoleName(USER)) == "user"
    ensures LowerAscii(RoleName(ASSISTANT)) == "assistant"
  {
    var user, assistant := LowerAscii("USER"), LowerAscii("ASSISTANT");
    forall k | 0 <= k < 4 ensures user[k] == "user"[k] {}
    forall k | 0 <= k < 9 ensures assistant[k] == "assistant"[k] {}
  }

  /** A message row as the store returns it: its content is a serialised blob. */
  datatype StoredMessage = StoredMessage(id: string, content: string, messageRole: string, createdAt: int)
}

=== FILE: MessageView.dfy ===
/** The chat view: it normalises the stored messages of the open chat for
    display (keeping every part kind), renders them with the live messages,
    sends a manual submission, and fires the one automatic continuation a
    freshly created chat is owed. */
module MessageView {
  import opened Seqs
  import opened Content

  // ---------------------------------------------------------------------
  // Normalising the stored messages (the `initialMessages` memo)
  // ---------------------------------------------------------------------

  /** A message as the view holds it: the parts are the parsed array as it is. */
  datatype ClientMessage = ClientMessage(id: string, role: string, parts: seq<Elem>, createdAt: int)

  /** The record passes the filter: its content is not blank and it has an id. */
  predicate Displayable(msg: StoredMessage)
  {
    msg.content != "" && !IsBlank(msg.content) && msg.id != ""
  }

  /** The parts of a content blob: the parsed array unfiltered, or the raw
      content as one text part when it does not parse to an array. */
  function ClientParts(parse: Parser, content: string): seq<Elem>
  {
    match parse(content)
    case Some(JArray(elems)) => elems
    case _ => [Obj(TextPart(content))]
  }

  /** One record in the view's shape, with its role lower-cased. */
  function ToClient(parse: Parser, msg: StoredMessage): ClientMessage
  {
    ClientMessage(msg.id, LowerAscii(msg.messageRole), ClientParts(parse, msg.content), msg.createdAt)
  }

  /** The displayable records, converted, in their order. */
  function NormaliseRecords(parse: Parser, stored: seq<StoredMessage>): (r: seq<ClientMessage>)
    ensures |r| == Count(Displayable, stored)
    ensures forall k :: 0 <= k < |r| ==> r[k].id != ""
    ensures forall m :: m in r ==> exists k :: 0 <= k < |stored| && Displayable(stored[k]) && m == ToClient(parse, stored[k])
  {
    if stored == [] then []
    else
      var rest := NormaliseRecords(parse, stored[1..]);
      assert forall k :: 0 <= k < |stored[1..]| ==> stored[1..][k] == stored[k + 1];
      if Displayable(stored[0]) then [ToClient(parse, stored[0])] + rest else rest
  }

  /** `initialMessages`: nothing before the chat has loaded. */
  function InitialMessages(parse: Parser, loaded: Option<seq<StoredMessage>>): (r: seq<ClientMessage>)
    ensures loaded.None? ==> r == []
    ensures loaded.Some? ==> |r| == Count(Displayable, loaded.value)
    ensures loaded.Some? ==> forall m :: m in r ==>
              exists k :: 0 <= k < |loaded.value| && Displayable(loaded.value[k]) && m == ToClient(parse, loaded.value[k])
  {
    if loaded.None? then [] else NormaliseRecords(parse, loaded.value)
  }

  /** Normalisation works record by record, so it keeps the records' order. */
  lemma {:induction false} NormaliseRecordsAppend(parse: Parser, a: seq<StoredMessage>, b: seq<StoredMessage>)
    ensures NormaliseRecords(parse, a + b) == NormaliseRecords(parse, a) + NormaliseRecords(parse, b)
  {
    if a == [] {
      assert a + b == b;
    } else {
      assert (a + b)[1..] == a[1..] + b;
      NormaliseRecordsAppend(parse, a[1..], b);
    }
  }

  /** Normalising what the server stored gives back every part, of every
      kind, in order: the view's normaliser inverts `JSON.stringify` of a parts array. */
  lemma StoredPartsRoundTrip(parse: Parser, stringify: Printer, id: string, role: string, createdAt: int, parts: seq<Elem>)
    requires RoundTrips(parse, stringify)
    requires id != ""
    ensures NormaliseRecords(parse, [StoredMessage(id, stringify(JArray(parts)), role, createdAt)])
            == [ClientMessage(id, LowerAscii(role), parts, createdAt)]
  {
    var s := StoredMessage(id, stringify(JArray(parts)), role, createdAt);
    assert parse(stringify(JArray(parts))) == Some(JArray(parts));
    assert !IsBlank(s.content);
    assert [s][1..] == [];
  }

  /** A chat's first message is stored as the raw text the user typed; when
      that text is not a JSON array it is shown as one text part. */
  lemma FirstMessageShownAsText(parse: Parser, id: string, content: string, createdAt: int)
    requires id != "" && !IsBlank(content)
    requires parse(content).None? || parse(content).value.NonArray?
    ensures NormaliseRecords(parse, [StoredMessage(id, content, RoleName(USER), createdAt)])
            == [ClientMessage(id, "user", [Obj(TextPart(content))], createdAt)]
  {
    var s := StoredMessage(id, content, RoleName(USER), createdAt);
    assert content != "";
    assert [s][1..] == [];
    RoleNamesLowerCase();
  }

  // ---------------------------------------------------------------------
  // Rendering
  // ---------------------------------------------------------------------

  /** What a part renders to. */
  datatype Node = Bubble(role: string, text: Option<string>) | ReasoningBlock(text: Option<string>) | Divider

  /** The conversation area: the empty-state prompt, the rendered parts, or
      a render that throws (a `null` part has no `.type`). */
  datatype Screen = EmptyState | Thread(nodes: seq<Node>) | Crashed

  /** The `switch (part.type)` for the part at index `i` of its message;
      `None` renders nothing. */
  function RenderPart(role: string, p: Part, i: nat): (r: Option<Node>)
    ensures r == Some(Divider) <==> p.kind == STEP_START && i > 0
    ensures p.kind == TEXT ==> r == Some(Bubble(role, p.text))
    ensures p.kind == REASONING ==> r == Some(ReasoningBlock(p.text))
    ensures r.None? <==> p.kind != TEXT && p.kind != REASONING && (p.kind != STEP_START || i == 0)
  {
    if p.kind == TEXT then Some(Bubble(role, p.text))
    else if p.kind == REASONING then Some(ReasoningBlock(p.text))
    else if p.kind == STEP_START then (if i > 0 then Some(Divider) else None)
    else None
  }

  /** The parts of one message from index `i` on; `None` when one is `null`. */
  function RenderParts(role: string, parts: seq<Elem>, i: nat): (r: Option<seq<Node>>)
    ensures r.None? <==> Nullish in parts
    ensures r.Some? ==> |r.value| <= |parts|
    decreases |parts|
  {
    if parts == [] then Some([])
    else
      assert forall e :: e in parts <==> e == parts[0] || e in parts[1..];
      match parts[0]
      case Nullish => None
      case Primitive => RenderParts(role, parts[1..], i + 1)
      case Obj(p) =>
        match RenderParts(role, parts[1..], i + 1)
        case None => None
        case Some(rest) =>
          var here := RenderPart(role, p, i);
          Some((if here.Some? then [here.value] else []) + rest)
  }

  /** Rendering a message's parts works part by part: the nodes of `a + b`
      are the nodes of `a` followed by those of `b`, numbered on from `a`. */
  lemma {:induction false} RenderPartsAppend(role: string, a: seq<Elem>, b: seq<Elem>, i: nat)
    ensures RenderParts(role, a + b, i)
            == if RenderParts(role, a, i).Some? && RenderParts(role, b, i + |a|).Some?
               then Some(RenderParts(role, a, i).value + RenderParts(role, b, i + |a|).value)
               else None
    decreases |a|
  {
    if a == [] {
      assert a + b == b;
      var restB := RenderParts(role, b, i);
      if restB.Some? {
        assert [] + restB.value == restB.value;
      }
    } else {
      assert (a + b)[0] == a[0];
      assert (a + b)[1..] == a[1..] + b;
      RenderPartsAppend(role, a[1..], b, i + 1);
      assert i + 1 + |a[1..]| == i + |a|;
      var tailA, restB := RenderParts(role, a[1..], i + 1), RenderParts(role, b, i + |a|);
      if a[0].Obj? && tailA.Some? && restB.Some? {
        var here := RenderPart(role, a[0].part, i);
        var front: seq<Node> := if here.Some? then [here.value] else [];
        assert front + (tailA.value + restB.value) == (front + tailA.value) + restB.value;
      }
    }
  }

  /** One part on its own: `null` throws, a primitive renders nothing, and
      an object renders what its `switch` case gives. */
  lemma RenderOnePart(role: string, e: Elem, i: nat)
    ensures e.Nullish? ==> RenderParts(role, [e], i).None?
    ensures e.Primitive? ==> RenderParts(role, [e], i) == Some([])
    ensures e.Obj? ==> RenderParts(role, [e], i)
                       == Some(if RenderPart(role, e.part, i).Some? then [RenderPart(role, e.part, i).value] else [])
  {
    assert [e][1..] == [];
    if e.Obj? {
      var here := RenderPart(role, e.part, i);
      var front: seq<Node> := if here.Some? then [here.value] else [];
      assert front + [] == front;
    }
  }

  /** A part that is a step marker. */
  predicate IsStepStart(e: Elem)
  {
    e.Obj? && e.part.kind == STEP_START
  }

  /** A rendered divider. */
  predicate IsDivider(n: Node)
  {
    n.Divider?
  }

  /** Past the first part, every step marker renders one divider and nothing else does. */
  lemma {:induction false} DividersAfterFirst(role: string, parts: seq<Elem>, i: nat)
    requires i > 0
    requires RenderParts(role, parts, i).Some?
    ensures Count(IsDivider, RenderParts(role, parts, i).value) == Count(IsStepStart, parts)
    decreases |parts|
  {
    if parts != [] {
      DividersAfterFirst(role, parts[1..], i + 1);
      var rest := RenderParts(role, parts[1..], i + 1).value;
      if parts[0].Obj? {
        var here := RenderPart(role, parts[0].part, i);
        var front := if here.Some? then [here.value] else [];
        CountAppend(IsDivider, front, rest);
      }
    }
  }

  /** A message renders one divider per step marker, except a step marker in first position. */
  lemma DividersOfMessage(role: string, parts: seq<Elem>)
    requires |parts| > 0
    requires RenderParts(role, parts, 0).Some?
    ensures Count(IsDivider, RenderParts(role, parts, 0).value) == Count(IsStepStart, parts[1..])
  {
    DividersAfterFirst(role, parts[1..], 1);
    var rest := RenderParts(role, parts[1..], 1).value;
    if parts[0].Obj? {
      var here := RenderPart(role, parts[0].part, 0);
      var front := if here.Some? then [here.value] else [];
      CountAppend(IsDivider, front, rest);
    }
  }

  /** Every message's parts, one message after another. */
  function RenderMessages(msgs: seq<ClientMessage>): (r: Option<seq<Node>>)
    ensures r.None? <==> exists k :: 0 <= k < |msgs| && Nullish in msgs[k].parts
  {
    if msgs == [] then Some([])
    else
      assert forall k :: 1 <= k < |msgs| ==> msgs[k] == msgs[1..][k - 1];
      match RenderParts(msgs[0].role, msgs[0].parts, 0)
      case None => None
      case Some(here) =>
        match RenderMessages(msgs[1..])
        case None => None
        case Some(rest) => Some(here + rest)
  }

  /** Rendering a list of messages works message by message, in order. */
  lemma {:induction false} RenderMessagesAppend(a: seq<ClientMessage>, b: seq<ClientMessage>)
    ensures RenderMessages(a + b)
            == if RenderMessages(a).Some? && RenderMessages(b).Some?
               then Some(RenderMessages(a).value + RenderMessages(b).value)
               else None
  {
    if a == [] {
      assert a + b == b;
      var restB := RenderMessages(b);
      if restB.Some? {
        assert [] + restB.value == restB.value;
      }
    } else {
      assert (a + b)[0] == a[0];
      assert (a + b)[1..] == a[1..] + b;
      RenderMessagesAppend(a[1..], b);
      var here, tailA, restB := RenderParts(a[0].role, a[0].parts, 0), RenderMessages(a[1..]), RenderMessages(b);
      if here.Some? && tailA.Some? && restB.Some? {
        assert here.value + (tailA.value + restB.value) == (here.value + tailA.value) + restB.value;
      }
    }
  }

  /** One message renders its own parts, numbered from 0, under its role. */
  lemma RenderOneMessage(m: ClientMessage)
    ensures RenderMessages([m]) == RenderParts(m.role, m.parts, 0)
  {
    assert [m][1..] == [];
    var here := RenderParts(m.role, m.parts, 0);
    if here.Some? {
      assert here.value + [] == here.value;
    }
  }

  /** The conversation area for the stored history followed by the live messages. */
  function Render(history: seq<ClientMessage>, live: seq<ClientMessage>): (r: Screen)
    ensures r == EmptyState <==> history == [] && live == []
    ensures r.Crashed? <==> exists k :: 0 <= k < |history + live| && Nullish in (history + live)[k].parts
    ensures history + live != [] && RenderMessages(history).Some? && RenderMessages(live).Some? ==>
              r == Thread(RenderMessages(history).value + RenderMessages(live).value)
  {
    RenderMessagesAppend(history, live);
    var all := history + live;
    if |all| == 0 then EmptyState
    else match RenderMessages(all)
      case None => Crashed
      case Some(nodes) => Thread(nodes)
  }

  /** A chat whose stored records are all blank or id-less shows the empty state, never an error. */
  lemma BlankChatShowsEmptyState(parse: Parser, stored: seq<StoredMessage>)
    requires forall k :: 0 <= k < |stored| ==> !Displayable(stored[k])
    ensures Render(InitialMessages(parse, Some(stored)), []) == EmptyState
    ensures Render(InitialMessages(parse, None), []) == EmptyState
  {
    assert Count(Displayable, stored) == 0;
  }

  // ---------------------------------------------------------------------
  // Sending: the auto-trigger effect and the manual submit
  // ---------------------------------------------------------------------

  /** One `sendMessage` call: the text and the request body it carries. */
  datatype SendRequest = SendRequest(text: Option<string>, model: Option<string>, chatId: string, skipUserMessage: bool)

  /** The current route: its path and its `autoTrigger` query parameter. */
  datatype Location = Location(path: string, autoTrigger: Option<string>)

  function ChatPath(chatId: string): string
  {
    "/chat/" + chatId
  }

  /** `searchParams.get("autoTrigger") === "true"`. */
  predicate ShouldAutoTrigger(l: Location)
  {
    l.autoTrigger == Some("true")
  }

  /** Where creating a chat navigates to: the chat, with the trigger intent. */
  function CreatedChatLocation(chatId: string): (l: Location)
    ensures ShouldAutoTrigger(l) && l.path == ChatPath(chatId)
  {
    Location(ChatPath(chatId), Some("true"))
  }

  /** The requests the effect sends are for distinct chats, and every one of
      them is marked in the registry. */
  predicate AutoSendsRecorded(sent: seq<SendRequest>, registry: set<string>)
  {
    && (forall i :: 0 <= i < |sent| && sent[i].skipUserMessage ==> sent[i].chatId in registry)
    && (forall i, j :: 0 <= i < j < |sent| && sent[i].skipUserMessage && sent[j].skipUserMessage ==>
          sent[i].chatId != sent[j].chatId)
  }

  /** The number of automatic continuations sent for `chatId`. */
  function AutoSendsFor(sent: seq<SendRequest>, chatId: string): nat
  {
    Count((r: SendRequest) => r.skipUserMessage && r.chatId == chatId, sent)
  }

  /** The registry's invariant bounds the automatic sends: at most one per chat. */
  lemma {:induction false} AtMostOneAutoSend(sent: seq<SendRequest>, registry: set<string>, chatId: string)
    requires AutoSendsRecorded(sent, registry)
    ensures AutoSendsFor(sent, chatId) <= 1
    ensures chatId !in registry ==> AutoSendsFor(sent, chatId) == 0
  {
    if sent != [] {
      var tail := sent[1..];
      assert AutoSendsRecorded(tail, registry) by {
        forall i, j | 0 <= i < j < |tail| && tail[i].skipUserMessage && tail[j].skipUserMessage
          ensures tail[i].chatId != tail[j].chatId
        {
          assert tail[i] == sent[i + 1] && tail[j] == sent[j + 1];
        }
      }
      AtMostOneAutoSend(tail, registry, chatId);
      if sent[0].skipUserMessage && sent[0].chatId == chatId {
        forall k | 0 <= k < |tail|
          ensures !(tail[k].skipUserMessage && tail[k].chatId == chatId)
        {
          assert tail[k] == sent[k + 1];
        }
      }
    }
  }

  /** Sending the continuation for a chat not yet in the registry, and marking it, keeps the invariant. */
  lemma RecordAutoSend(sent: seq<SendRequest>, registry: set<string>, req: SendRequest)
    requires AutoSendsRecorded(sent, registry)
    requires req.skipUserMessage && req.chatId !in registry
    ensures AutoSendsRecorded(sent + [req], registry + {req.chatId})
  {
  }

  /** The view's state for one chat page, with the session's trigger registry. */
  class ChatView {
    /** The component's one-shot `hasAutoTriggered` ref. */
    var guard: bool
    /** The session's set of chat ids already auto-triggered. */
    var registry: set<string>
    /** Every `sendMessage` call so far, in order. */
    var sent: seq<SendRequest>
    var location: Location
    var input: string
    var selectedModel: Option<string>

    ghost predicate Valid()
      reads this
    {
      AutoSendsRecorded(sent, registry)
    }

    /** A fresh session opening the view at `location`, with the chat's model as the initial selection. */
    constructor (location: Location, chatModel: Option<string>)
      ensures Valid()
      ensures !guard && registry == {} && sent == []
      ensures this.location == location && input == "" && selectedModel == chatModel
    {
      guard := false;
      registry := {};
      sent := [];
      this.location := location;
      input := "";
      selectedModel := chatModel;
    }

    /** The effect's conditions, in the order it checks them. */
    predicate Eligible(chatId: string, history: seq<ClientMessage>)
      reads this
    {
      && !guard
      && ShouldAutoTrigger(location)
      && chatId !in registry
      && Truthy(selectedModel)
      && |history| > 0
      && history[|history| - 1].role == "user"
    }

    /** One run of the auto-trigger effect: when eligible, set the guard and
        mark the chat before sending the continuation (model, chat id,
        `skipUserMessage`), then drop the intent flag from the URL. */
    method AutoTrigger(chatId: string, history: seq<ClientMessage>) returns (fired: bool)
      requires Valid()
      modifies this
      ensures Valid()
      ensures fired == old(Eligible(chatId, history))
      ensures fired ==> guard && registry == old(registry) + {chatId}
                        && sent == old(sent) + [SendRequest(None, old(selectedModel), chatId, true)]
                        && location == Location(ChatPath(chatId), None)
      ensures !fired ==> guard == old(guard) && registry == old(registry) && sent == old(sent) && location == old(location)
      ensures input == old(input) && selectedModel == old(selectedModel)
    {
      if guard { return false; }
      if !ShouldAutoTrigger(location) { return false; }
      if chatId in registry { return false; }
      if !Truthy(selectedModel) { return false; }
      if |history| == 0 { return false; }
      if history[|history| - 1].role != "user" { return false; }

      guard := true;
      registry := registry + {chatId};
      var req := SendRequest(None, selectedModel, chatId, true);
      RecordAutoSend(sent, old(registry), req);
      sent := sent + [req];
      location := Location(ChatPath(chatId), None);
      fired := true;
    }

    /** Take the chat's model as the selection when none is selected yet. */
    method SyncSelectedModel(chatModel: Option<string>)
      requires Valid()
      modifies this`selectedModel
      ensures Valid()
      ensures selectedModel == (if Truthy(chatModel) && !Truthy(old(selectedModel)) then chatModel else old(selectedModel))
    {
      if Truthy(chatModel) && !Truthy(selectedModel) {
        selectedModel := chatModel;
      }
    }

    /** The text field's change handler. */
    method SetInput(text: string)
      requires Valid()
      modifies this`input
      ensures Valid()
      ensures input == text
    {
      input := text;
    }

    /** The manual submit: a blank input sends nothing; otherwise it sends
        the input with the model and chat id and empties the field. */
    method HandleSubmit(chatId: string) returns (sentOne: bool)
      requires Valid()
      modifies this`sent, this`input
      ensures Valid()
      ensures sentOne == !IsBlank(old(input))
      ensures sentOne ==> sent == old(sent) + [SendRequest(Some(old(input)), selectedModel, chatId, false)] && input == ""
      ensures !sentOne ==> sent == old(sent) && input == old(input)
    {
      if IsBlank(input) { return false; }
      sent := sent + [SendRequest(Some(input), selectedModel, chatId, false)];
      input := "";
      sentOne := true;
    }

    /** The page was left and entered again by navigating to `l`. */
    method Navigate(l: Location)
      requires Valid()
      modifies this`location
      ensures Valid()
      ensures location == l
    {
      location := l;
    }

    /** The component mounts again in the same session: its ref and state
        start over, the session's registry and what was sent do not. */
    method Remount(chatModel: Option<string>)
      requires Valid()
      modifies this`guard, this`input, this`selectedModel
      ensures Valid()
      ensures !guard && input == "" && selectedModel == chatModel
    {
      guard := false;
      input := "";
      selectedModel := chatModel;
    }
  }

  /** A new chat whose first message is "Explain CAP theorem": the effect
      runs, runs again, the view remounts and the chat is re-entered with
      the intent flag; exactly one continuation goes out. */
  method NewChatScenario(parse: Parser, chatId: string, messageId: string, model: string)
    requires chatId != "" && messageId != "" && model != ""
    requires parse("Explain CAP theorem").None?
  {
    var text := "Explain CAP theorem";
    var stored := [StoredMessage(messageId, text, RoleName(USER), 0)];
    assert !IsWhitespace(text[0]);
    FirstMessageShownAsText(parse, messageId, text, 0);
    var history := NormaliseRecords(parse, stored);
    assert history == [ClientMessage(messageId, "user", [Obj(TextPart(text))], 0)];

    var view := new ChatView(CreatedChatLocation(chatId), Some(model));
    var fired := view.AutoTrigger(chatId, history);
    assert fired && view.sent == [SendRequest(None, Some(model), chatId, true)];

    fired := view.AutoTrigger(chatId, history);
    assert !fired;

    view.Remount(Some(model));
    view.Navigate(CreatedChatLocation(chatId));
    fired := view.AutoTrigger(chatId, history);
    assert !fired;
    AtMostOneAutoSend(view.sent, view.registry, chatId);
    assert |view.sent| == 1;
  }
}

=== FILE: PromptInput.dfy ===
/** The prompt input's attachment list and its small decisions: which files
    an `accept` string admits, how `add` filters, caps and appends, how
    `remove`, `clear` and submit change the list, which key submits, and
    which icon the submit button shows. */
module PromptInput {
  import opened Seqs
  import opened Content

  /** A browser `File`: name, MIME type and size in bytes. */
  datatype File = File(name: string, mediaType: string, size: nat)

  const FILE := "file"

  /** An attachment in the list; `kind` is always `"file"`. */
  datatype Attachment = Attachment(id: nat, kind: string, mediaType: string, filename: string)

  /** The codes passed to `onError`. */
  datatype ErrorCode = Accept | MaxFileSize | MaxFiles

  /** The component's props that govern `add`. */
  datatype Config = Config(accept: Option<string>, maxFiles: Option<int>, maxFileSize: Option<int>)

  // ---------------------------------------------------------------------
  // Filters
  // ---------------------------------------------------------------------

  /** `matchesAccept`: only an `accept` naming the image wildcard restricts, and then to image types. */
  predicate MatchesAccept(accept: Option<string>, f: File)
  {
    if accept.None? || IsBlank(accept.value) then true
    else if Includes(accept.value, "image/*") then StartsWith(f.mediaType, "image/")
    else true
  }

  /** The three cases of `matchesAccept`. */
  lemma MatchesAcceptCases(accept: Option<string>, f: File)
    ensures accept.None? ==> MatchesAccept(accept, f)
    ensures accept.Some? && IsBlank(accept.value) ==> MatchesAccept(accept, f)
    ensures accept.Some? && !IsBlank(accept.value) && Includes(accept.value, "image/*") ==>
              (MatchesAccept(accept, f) <==> StartsWith(f.mediaType, "image/"))
    ensures accept.Some? && !Includes(accept.value, "image/*") ==> MatchesAccept(accept, f)
  {
  }

  /** `image/png` passes an image-only accept, `application/pdf` does not. */
  lemma ImageAcceptExample()
    ensures MatchesAccept(Some("image/*"), File("a.png", "image/png", 10))
    ensures !MatchesAccept(Some("image/*"), File("a.pdf", "application/pdf", 10))
  {
    var accept := "image/*";
    assert !IsWhitespace(accept[0]);
    assert StartsWith(accept[0..], accept);
    assert Includes(accept, accept);
    assert "image/png"[..6] == "image/";
    assert "application/pdf"[..6] != "image/" by {
      assert "application/pdf"[..6][0] == 'a';
    }
  }

  /** A truthy `maxFileSize` bounds the size (inclusively); `0` or absent disables the check. */
  predicate WithinSize(maxFileSize: Option<int>, f: File)
  {
    if maxFileSize.Some? && maxFileSize.value != 0 then f.size <= maxFileSize.value else true
  }

  /** The incoming files that match `accept`, in order. */
  function AcceptedFiles(accept: Option<string>, files: seq<File>): (r: seq<File>)
    ensures forall f :: f in r <==> f in files && MatchesAccept(accept, f)
  {
    Filter((f: File) => MatchesAccept(accept, f), files)
  }

  /** The accepted files within the size limit, in order. */
  function SizedFiles(maxFileSize: Option<int>, files: seq<File>): (r: seq<File>)
    ensures forall f :: f in r <==> f in files && WithinSize(maxFileSize, f)
  {
    Filter((f: File) => WithinSize(maxFileSize, f), files)
  }

  /** `Math.max(0, maxFiles - prev.length)`. */
  function Capacity(maxFiles: int, prevLen: nat): (c: nat)
    ensures prevLen <= maxFiles ==> c == maxFiles - prevLen
    ensures maxFiles < prevLen ==> c == 0
  {
    if maxFiles - prevLen < 0 then 0 else maxFiles - prevLen
  }

  // ---------------------------------------------------------------------
  // The add decision
  // ---------------------------------------------------------------------

  /** What `add` does: report an error and stop, or append files (reporting
      `max_files` when the cap cut some). */
  datatype AddPlan = Rejected(code: ErrorCode) | Append(files: seq<File>, cut: bool)

  /** The decision `add` takes for `incoming` when the list holds `prevLen` items. */
  function PlanAdd(cfg: Config, prevLen: nat, incoming: seq<File>): (r: AddPlan)
    ensures r == Rejected(Accept) <==> forall f :: f in incoming ==> !MatchesAccept(cfg.accept, f)
    ensures r == Rejected(MaxFileSize) <==>
              (exists f :: f in incoming && MatchesAccept(cfg.accept, f))
              && forall f :: f in incoming && MatchesAccept(cfg.accept, f) ==> !WithinSize(cfg.maxFileSize, f)
    ensures r.Append? ==> forall f :: f in r.files ==> f in incoming && MatchesAccept(cfg.accept, f) && WithinSize(cfg.maxFileSize, f)
    ensures r.Append? ==> r.files <= SizedFiles(cfg.maxFileSize, AcceptedFiles(cfg.accept, incoming))
    ensures r.Append? && cfg.maxFiles.None? ==> r.files == SizedFiles(cfg.maxFileSize, AcceptedFiles(cfg.accept, incoming)) && !r.cut
    ensures r.Append? && cfg.maxFiles.Some? ==>
              var sized := SizedFiles(cfg.maxFileSize, AcceptedFiles(cfg.accept, incoming));
              var cap := Capacity(cfg.maxFiles.value, prevLen);
              |r.files| == (if |sized| <= cap then |sized| else cap) && (r.cut <==> |sized| > cap)
    ensures r.Append? && cfg.maxFiles.Some? && prevLen <= cfg.maxFiles.value ==> prevLen + |r.files| <= cfg.maxFiles.value
  {
    var accepted := AcceptedFiles(cfg.accept, incoming);
    if |accepted| == 0 then
      assert forall f :: f in incoming ==> !MatchesAccept(cfg.accept, f);
      Rejected(Accept)
    else
      assert accepted[0] in accepted;
      var sized := SizedFiles(cfg.maxFileSize, accepted);
      if |sized| == 0 then
        Rejected(MaxFileSize)
      else
        assert sized[0] in sized;
        if cfg.maxFiles.None? then Append(sized, false)
        else
          var cap := Capacity(cfg.maxFiles.value, prevLen);
          var capped := if |sized| <= cap then sized else sized[..cap];
          assert forall f :: f in capped ==> f in sized;
          Append(capped, |sized| > cap)
  }

  /** Attachments for `files`, numbered from `start`, with type and name copied. */
  function Stamp(files: seq<File>, start: nat): (r: seq<Attachment>)
    ensures |r| == |files|
    ensures forall k :: 0 <= k < |files| ==>
              r[k] == Attachment(start + k, FILE, files[k].mediaType, files[k].name)
  {
    seq(|files|, k requires 0 <= k < |files| => Attachment(start + k, FILE, files[k].mediaType, files[k].name))
  }

  /** No two attachments share an id. */
  predicate DistinctIds(items: seq<Attachment>)
  {
    forall i, j :: 0 <= i < j < |items| ==> items[i].id != items[j].id
  }

  /** The list without the attachments whose id is `id`. */
  function WithoutId(items: seq<Attachment>, id: nat): (r: seq<Attachment>)
    ensures forall a :: a in r <==> a in items && a.id != id
  {
    Filter((a: Attachment) => a.id != id, items)
  }

  /** The tail of a list of distinct ids is distinct, and none of it shares the head's id. */
  lemma DistinctTail(items: seq<Attachment>)
    requires DistinctIds(items) && items != []
    ensures DistinctIds(items[1..])
    ensures forall a :: a in items[1..] ==> a.id != items[0].id
  {
    var tail := items[1..];
    forall i, j | 0 <= i < j < |tail| ensures tail[i].id != tail[j].id {
      assert tail[i] == items[i + 1] && tail[j] == items[j + 1];
    }
    forall a | a in tail ensures a.id != items[0].id {
      var k :| 0 <= k < |tail| && tail[k] == a;
      assert tail[k] == items[k + 1];
    }
  }

  /** Removing by id keeps the remaining ids distinct. */
  lemma {:induction false} WithoutIdDistinct(items: seq<Attachment>, id: nat)
    requires DistinctIds(items)
    ensures DistinctIds(WithoutId(items, id))
  {
    if items != [] {
      DistinctTail(items);
      WithoutIdDistinct(items[1..], id);
      var rest := WithoutId(items[1..], id);
      if items[0].id != id {
        var r := [items[0]] + rest;
        assert WithoutId(items, id) == r;
        forall i, j | 0 <= i < j < |r| ensures r[i].id != r[j].id {
          if i == 0 {
            assert r[j] in rest;
          } else {
            assert r[i] == rest[i - 1] && r[j] == rest[j - 1];
          }
        }
      }
    }
  }

  /** Removing an id that no attachment has changes nothing. */
  lemma WithoutIdAbsent(items: seq<Attachment>, id: nat)
    requires forall k :: 0 <= k < |items| ==> items[k].id != id
    ensures WithoutId(items, id) == items
  {
    FilterKeepsAll((a: Attachment) => a.id != id, items);
  }

  /** Removing the id of one attachment of a list of distinct ids removes exactly that one. */
  lemma {:induction false} WithoutIdRemovesOne(items: seq<Attachment>, id: nat, k: nat)
    requires DistinctIds(items)
    requires k < |items| && items[k].id == id
    ensures |WithoutId(items, id)| == |items| - 1
  {
    DistinctTail(items);
    var tail := items[1..];
    if k == 0 {
      WithoutIdAbsent(tail, id);
    } else {
      assert tail[k - 1] == items[k];
      WithoutIdRemovesOne(tail, id, k - 1);
    }
  }

  /** An attachment as handed to `onSubmit`: the attachment without its id. */
  datatype FilePart = FilePart(kind: string, mediaType: string, filename: string)

  /** The attachments with their ids stripped, in order. */
  function StripIds(items: seq<Attachment>): (r: seq<FilePart>)
    ensures |r| == |items|
    ensures forall k :: 0 <= k < |items| ==>
              r[k] == FilePart(items[k].kind, items[k].mediaType, items[k].filename)
  {
    seq(|items|, k requires 0 <= k < |items| => FilePart(items[k].kind, items[k].mediaType, items[k].filename))
  }

  /** What `onSubmit` receives. */
  datatype Submission = Submission(text: string, files: seq<FilePart>)

  /** The list never holds more than `maxFiles` items (none when it is negative). */
  predicate WithinCapacity(cfg: Config, n: nat)
  {
    cfg.maxFiles.Some? ==> n <= Capacity(cfg.maxFiles.value, 0)
  }

  /** The `PromptInput` component's attachment state. */
  class Attachments {
    const config: Config
    var items: seq<Attachment>
    /** The next fresh id (standing for `nanoid()`). */
    var nextId: nat
    /** Every `onError` call so far, in order. */
    var errors: seq<ErrorCode>

    ghost predicate Valid()
      reads this
    {
      && DistinctIds(items)
      && (forall k :: 0 <= k < |items| ==> items[k].id < nextId && items[k].kind == FILE)
      && WithinCapacity(config, |items|)
    }

    constructor (config: Config)
      ensures Valid()
      ensures this.config == config && items == [] && errors == []
    {
      this.config := config;
      items := [];
      nextId := 0;
      errors := [];
    }

    /** `add`: filter by `accept`, then by size, then cap by `maxFiles`,
        reporting the first failing stage, and append the survivors with fresh ids. */
    method Add(incoming: seq<File>)
      requires Valid()
      modifies this`items, this`nextId, this`errors
      ensures Valid()
      ensures (match PlanAdd(config, |old(items)|, incoming)
        case Rejected(code) =>
          items == old(items) && nextId == old(nextId) && errors == old(errors) + [code]
        case Append(files, cut) =>
          items == old(items) + Stamp(files, old(nextId)) && nextId == old(nextId) + |files|
          && errors == old(errors) + (if cut then [MaxFiles] else []))
    {
      ghost var plan := PlanAdd(config, |items|, incoming);
      var accepted := AcceptedFiles(config.accept, incoming);
      if |accepted| == 0 {
        errors := errors + [Accept];
        return;
      }
      var sized := SizedFiles(config.maxFileSize, accepted);
      if |sized| == 0 {
        errors := errors + [MaxFileSize];
        return;
      }
      var capped := sized;
      if config.maxFiles.Some? {
        var cap := Capacity(config.maxFiles.value, |items|);
        if |sized| > cap {
          capped := sized[..cap];
          errors := errors + [MaxFiles];
        }
      }
      assert plan.Append? && plan.files == capped;
      AppendStamped(capped);
    }

    /** `prev.concat(capped.map(...))`: one attachment per file, each with a fresh id. */
    method AppendStamped(files: seq<File>)
      requires Valid()
      requires WithinCapacity(config, |items| + |files|)
      modifies this`items, this`nextId
      ensures Valid()
      ensures items == old(items) + Stamp(files, old(nextId)) && nextId == old(nextId) + |files|
    {
      var i := 0;
      while i < |files|
        invariant 0 <= i <= |files|
        invariant nextId == old(nextId) + i
        invariant items == old(items) + Stamp(files[..i], old(nextId))
      {
        assert files[..i + 1] == files[..i] + [files[i]];
        items := items + [Attachment(nextId, FILE, files[i].mediaType, files[i].name)];
        nextId := nextId + 1;
        i := i + 1;
      }
      assert files[..i] == files;
    }

    /** `remove(id)`: drop the attachments with that id, keep the rest in order. */
    method Remove(id: nat)
      requires Valid()
      modifies this`items
      ensures Valid()
      ensures items == WithoutId(old(items), id)
    {
      WithoutIdDistinct(items, id);
      items := WithoutId(items, id);
    }

    /** `clear`: empty the list. */
    method Clear()
      requires Valid()
      modifies this`items
      ensures Valid()
      ensures items == []
    {
      items := [];
    }

    /** `handleSubmit`: hand the text (`""` when absent) and the attachments
        without their ids to `onSubmit`, then clear the list. */
    method Submit(message: Option<string>) returns (s: Submission)
      requires Valid()
      modifies this`items
      ensures Valid()
      ensures s == Submission(OrEmpty(message), StripIds(old(items)))
      ensures items == []
    {
      s := Submission(OrEmpty(message), StripIds(items));
      Clear();
    }
  }

  // ---------------------------------------------------------------------
  // Keyboard and submit button
  // ---------------------------------------------------------------------

  /** `handleKeyDown`: does this key event request a submit? */
  function RequestsSubmit(key: string, shiftKey: bool, isComposing: bool): (r: bool)
    ensures r ==> key == "Enter"
    ensures key == "Enter" ==> (r <==> !shiftKey && !isComposing)
  {
    key == "Enter" && !shiftKey && !isComposing
  }

  /** The chat status passed to the submit button (`Ready` when idle). */
  datatype ChatStatus = Submitted | Streaming | Error | Ready

  datatype Icon = Spinner | StopSquare | Cross | SendArrow

  /** `PromptInputSubmit`'s icon for a status. */
  function SubmitIcon(status: Option<ChatStatus>): (icon: Icon)
    ensures icon == SendArrow <==> status.None? || status == Some(Ready)
    ensures icon == StopSquare <==> status == Some(Streaming)
    ensures icon == Spinner <==> status == Some(Submitted)
    ensures icon == Cross <==> status == Some(Error)
  {
    match status
    case Some(Submitted) => Spinner
    case Some(Streaming) => StopSquare
    case Some(Error) => Cross
    case _ => SendArrow
  }

}

=== FILE: Seqs.dfy ===
/** Small sequence vocabulary shared by the chat modules: an optional value
    (JavaScript's `undefined`) and order-preserving filtering and counting,
    which is what `Array.prototype.filter` does. */
module Seqs {

  /** A value that may be absent. */
  datatype Option<+T> = None | Some(value: T)

  /** The elements of `s` that satisfy `keep`, in their original order. */
  function Filter<T(!new)>(keep: T -> bool, s: seq<T>): (r: seq<T>)
    ensures |r| <= |s|
    ensures forall x :: x in r <==> x in s && keep(x)
    ensures forall k :: 0 <= k < |r| ==> keep(r[k])
  {
    if s == [] then []
    else
      var rest := Filter(keep, s[1..]);
      assert forall x :: x in s <==> x == s[0] || x in s[1..];
      if keep(s[0]) then [s[0]] + rest else rest
  }

  /** Filtering distributes over concatenation, so it keeps the relative order of what it keeps. */
  lemma {:induction false} FilterAppend<T(!new)>(keep: T -> bool, a: seq<T>, b: seq<T>)
    ensures Filter(keep, a + b) == Filter(keep, a) + Filter(keep, b)
  {
    if a == [] {
      assert a + b == b;
    } else {
      assert (a + b)[1..] == a[1..] + b;
      FilterAppend(keep, a[1..], b);
    }
  }

  /** Filtering a sequence whose every element is kept gives the sequence back. */
  lemma {:induction false} FilterKeepsAll<T(!new)>(keep: T -> bool, s: seq<T>)
    requires forall k :: 0 <= k < |s| ==> keep(s[k])
    ensures Filter(keep, s) == s
  {
    if s != [] {
      FilterKeepsAll(keep, s[1..]);
    }
  }

  /** A one-element sequence is kept or dropped whole. */
  lemma FilterSingleton<T(!new)>(keep: T -> bool, x: T)
    ensures Filter(keep, [x]) == if keep(x) then [x] else []
  {
    assert [x][1..] == [];
  }

  /** `rel` holds between every element and every later one. */
  predicate Pairwise<T>(rel: (T, T) -> bool, s: seq<T>)
  {
    forall i, j :: 0 <= i < j < |s| ==> rel(s[i], s[j])
  }

  /** Filtering keeps the relative order, so a relation between earlier and later elements survives it. */
  lemma {:induction false} FilterPairwise<T(!new)>(keep: T -> bool, rel: (T, T) -> bool, s: seq<T>)
    requires Pairwise(rel, s)
    ensures Pairwise(rel, Filter(keep, s))
  {
    if s != [] {
      var tail := s[1..];
      assert Pairwise(rel, tail) by {
        forall i, j | 0 <= i < j < |tail| ensures rel(tail[i], tail[j]) {
          assert tail[i] == s[i + 1] && tail[j] == s[j + 1];
        }
      }
      FilterPairwise(keep, rel, tail);
      var rest := Filter(keep, tail);
      if keep(s[0]) {
        var r := [s[0]] + rest;
        forall i, j | 0 <= i < j < |r| ensures rel(r[i], r[j]) {
          if i == 0 {
            assert r[j] in tail;
            var k :| 0 <= k < |tail| && tail[k] == r[j];
            assert rel(s[0], s[k + 1]);
          } else {
            assert r[i] == rest[i - 1] && r[j] == rest[j - 1];
          }
        }
      }
    }
  }

  /** The number of elements of `s` that satisfy `p`. */
  function Count<T>(p: T -> bool, s: seq<T>): (n: nat)
    ensures n <= |s|
    ensures n == 0 <==> forall k :: 0 <= k < |s| ==> !p(s[k])
  {
    if s == [] then 0
    else (if p(s[0]) then 1 else 0) + Count(p, s[1..])
  }

  /** Counting over a concatenation adds up. */
  lemma {:induction false} CountAppend<T>(p: T -> bool, a: seq<T>, b: seq<T>)
    ensures Count(p, a + b) == Count(p, a) + Count(p, b)
  {
    if a == [] {
      assert a + b == b;
    } else {
      assert (a + b)[1..] == a[1..] + b;
      CountAppend(p, a[1..], b);
    }
  }
}

=== FILE: WelcomeTabs.dfy ===
/** The welcome screen of an empty chat: a greeting with the user's first
    name, four tabs of suggested prompts with one tab active, and the list
    of the active tab's prompts with a separator between neighbours. */
module WelcomeTabs {
  import opened Seqs
  import opened Content

  /** A tab: its name and its suggested prompts (the icon is presentation). */
  datatype ChatTab = ChatTab(tabName: string, messages: seq<string>)

  const TABS: seq<ChatTab> := [
    ChatTab("Create", [
      "Write a short story about a robot discovering emotions",
      "Help me outline a sci-fi novel set in a post-apocalyptic world",
      "Create a character profile for a complex villain with sympathetic motives",
      "Give me 5 creative writing prompts for flash fiction"]),
    ChatTab("Explore", [
      "Good books for fans of Rick Rubin",
      "Countries ranked by number of corgis",
      "Most successful companies in the world",
      "How much does Claude cost?"]),
    ChatTab("Code", [
      "Write code to invert a binary search tree in Python",
      "What is the difference between Promise.all and Promise.allSettled?",
      "Explain React's useEffect cleanup function",
      "Best practices for error handling in async/await"]),
    ChatTab("Learn", [
      "Beginner's guide to TypeScript",
      "Explain the CAP theorem in distributed systems",
      "Why is AI so expensive?",
      "Are black holes real?"])
  ]

  /** The tab names are distinct (they are the buttons' keys) and every tab offers four prompts. */
  lemma TabsWellFormed()
    ensures |TABS| == 4
    ensures forall i, j :: 0 <= i < j < |TABS| ==> TABS[i].tabName != TABS[j].tabName
    ensures forall i :: 0 <= i < |TABS| ==> |TABS[i].messages| == 4
  {
  }

  /** The name shown when the caller passes none. */
  const DEFAULT_USER_NAME := "John Doe"

  /** The name prop with its default applied. */
  function UserNameOrDefault(userName: Option<string>): (r: string)
    ensures userName.Some? ==> r == userName.value
    ensures userName.None? ==> r == DEFAULT_USER_NAME
  {
    if userName.Some? then userName.value else DEFAULT_USER_NAME
  }

  /** The greeting's name as the component computes it: the slice up to the
      first space, or the whole name when that slice is empty. With no space
      at all the end index is -1, which a slice reads as "all but the last
      character". */
  function FirstNameAsWritten(userName: string): (r: string)
    ensures ' ' in userName && IndexOf(userName, ' ') > 0 ==> r == userName[..IndexOf(userName, ' ')]
    ensures ' ' in userName && IndexOf(userName, ' ') == 0 ==> r == userName
    ensures ' ' !in userName && |userName| >= 2 ==> r == userName[..|userName| - 1]
    ensures ' ' !in userName && |userName| < 2 ==> r == userName
  {
    var s := JsSlice(userName, 0, IndexOf(userName, ' '));
    if s == "" then userName else s
  }

  /** The first word of the name, or the whole name when it has no first word. */
  function FirstName(userName: string): (r: string)
    ensures ' ' !in userName ==> r == userName
    ensures StartsWith(userName, r)
    ensures r == userName || (r != "" && ' ' !in r && userName[|r|] == ' ')
  {
    var i := IndexOf(userName, ' ');
    var s := if i < 0 then userName else userName[..i];
    if s == "" then userName else s
  }

  /** The component shows the intended first name whenever the name contains a
      space, and a name without a space of two or more characters loses its
      last character. */
  lemma {:induction false} FirstNameAsWrittenDiffers(userName: string)
    ensures ' ' in userName ==> FirstNameAsWritten(userName) == FirstName(userName)
    ensures ' ' !in userName && |userName| >= 2 ==>
              FirstNameAsWritten(userName) != FirstName(userName)
              && FirstNameAsWritten(userName) + [userName[|userName| - 1]] == FirstName(userName)
  {
    if ' ' !in userName && |userName| >= 2 {
      assert userName[..|userName| - 1] + [userName[|userName| - 1]] == userName;
    }
  }

  /** The concrete case: a one-word name such as "Alice" is greeted as "Alic". */
  lemma OneWordNameTruncated()
    ensures FirstNameAsWritten("Alice") == "Alic"
    ensures FirstName("Alice") == "Alice"
  {
    assert ' ' !in "Alice";
  }

  /** The default name's first space follows "John". */
  lemma DefaultNameSpace()
    ensures IndexOf(DEFAULT_USER_NAME, ' ') == 4
  {
  }

  /** With no name given the greeting says "John", as written and as intended. */
  lemma DefaultGreeting()
    ensures FirstNameAsWritten(UserNameOrDefault(None)) == "John"
    ensures FirstName(UserNameOrDefault(None)) == "John"
  {
    DefaultNameSpace();
    assert FirstName(DEFAULT_USER_NAME) == "John";
    assert ' ' in DEFAULT_USER_NAME;
    FirstNameAsWrittenDiffers(DEFAULT_USER_NAME);
  }

  /** How a tab button is drawn. */
  datatype Variant = Default | Secondary

  /** One suggestion in the active tab's list and whether a separator follows it. */
  datatype Row = Row(message: string, separator: bool)

  /** The suggestion list: every prompt but the last is followed by a separator. */
  function SuggestionRows(messages: seq<string>): (rows: seq<Row>)
    ensures |rows| == |messages|
    ensures forall i :: 0 <= i < |rows| ==> rows[i].message == messages[i]
    ensures forall i :: 0 <= i < |rows| ==> (rows[i].separator <==> i + 1 < |rows|)
  {
    seq(|messages|, i requires 0 <= i < |messages| => Row(messages[i], i < |messages| - 1))
  }

  predicate HasSeparator(row: Row)
  {
    row.separator
  }

  /** A list of n prompts draws n - 1 separators, none after the last prompt. */
  lemma {:induction false} SeparatorCount(messages: seq<string>)
    ensures Count(HasSeparator, SuggestionRows(messages)) == if messages == [] then 0 else |messages| - 1
  {
    if messages != [] {
      var rows := SuggestionRows(messages);
      assert rows[1..] == SuggestionRows(messages[1..]);
      SeparatorCount(messages[1..]);
    }
  }

  /** The tab state of the welcome screen. */
  class TabState {
    var activeTab: nat

    ghost predicate Valid()
      reads this
    {
      activeTab < |TABS|
    }

    /** The first tab starts active. */
    constructor ()
      ensures Valid() && activeTab == 0
    {
      activeTab := 0;
    }

    /** Clicking the button of tab `index`. */
    method SelectTab(index: nat)
      requires index < |TABS|
      modifies this
      ensures Valid() && activeTab == index
    {
      activeTab := index;
    }

    /** The tab buttons: exactly the active one is drawn as the default variant. */
    function Buttons(): (vs: seq<Variant>)
      reads this
      ensures |vs| == |TABS|
      ensures forall i :: 0 <= i < |vs| ==> (vs[i] == Default <==> i == activeTab)
    {
      var active := activeTab;
      seq(|TABS|, i requires 0 <= i < |TABS| => if i == active then Default else Secondary)
    }

    /** The active tab's prompts, each with its separator flag. */
    function Suggestions(): (rows: seq<Row>)
      reads this
      requires Valid()
      ensures |rows| == 4
      ensures forall i :: 0 <= i < |rows| ==> rows[i].message == TABS[activeTab].messages[i]
      ensures Count(HasSeparator, rows) == 3
    {
      TabsWellFormed();
      SeparatorCount(TABS[activeTab].messages);
      SuggestionRows(TABS[activeTab].messages)
    }
  }
}
